=== FILE: README.md ===
# Grailed listing scraper — a Dafny model

The backend of this project scrapes a listing on the Grailed marketplace. It:

1. opens the listing page and reads its details (price, designer labels, condition, image count, ...);
2. follows the breadcrumb trail to the listing's category page;
3. narrows that page to the listing's condition;
4. scrolls it to harvest links to related listings;
5. scrapes each of those links in small batches.

The backend exists in two variants, and this project models both:

- **backend/browserless-mode.js**, the hardened scraper:
  - every field is read through a fallback chain of selectors;
  - the harvest loop has an idle counter;
  - a related listing that fails becomes a `{ link, error }` record;
  - a missing breadcrumb falls back to a "similar items" link.
- **backend/scraper.js**, the early scraper:
  - one selector per field, plus a colour field;
  - a harvest loop that stops on a height plateau;
  - all-or-nothing batches;
  - no fallback navigation.

A rendered page is an immutable snapshot, `Page = map<Selector, seq<Element>>`. Every `querySelector`, `querySelectorAll` and `$$eval` becomes a lookup in that snapshot. Selector syntax is not interpreted, so a comma-separated selector is one key.

Everything the browser decides becomes an input:

- the listing page after `goto`: `Visit = Loaded(page) | Broken(message)`;
- the category page after the click;
- one `Observation` per harvest pass: whether the wait timed out, the page height before and after, and the page;
- a function `visit : string -> Visit` giving what each related link yields.

A run of `scrapeGrailedListing` is a `Run` made of three parts:

- the resolved or rejected result;
- the outcome of the condition filter, if it was called;
- the browser side effects in order: screenshots, then closing the browser.

Modules:

| module | contents |
|---|---|
| `Wrappers`, `Strings`, `Seqs` | `Option`/`Result`; the JavaScript string operations used (`startsWith`, `includes`, first-occurrence `replace`, ASCII `toLowerCase`); insertion-ordered de-duplication (`Array.from(new Set(...))`), flattening, `slice` batching |
| `Dom` | the page snapshot and the harvest observation |
| `ListingUrls` | the listing-URL filter shared by both harvesters, including the regular expression `/\/listings\/\d+-/` |
| `Resolver` | the first-match-wins helpers of `getListingDetails` |
| `Extraction` | the record read through a set of selector chains, shared by both variants |
| `Conditions` | the five-entry condition taxonomy, the `"new"` alias, the 1-based index lookup, filter outcomes |
| `Records` | details, records, runs and effects |
| `Navigation` | the breadcrumb and "similar items" choices |
| `Batches` | consecutive batches of at most `batchSize` links, each handed to `Promise.all` |
| `BrowserlessMode` | backend/browserless-mode.js |
| `Scraper` | backend/scraper.js |

## Model

| member | source | states |
|---|---|---|
| Resolver.FirstText | backend/browserless-mode.js:112-122 | `getFirstMatch` in text mode is `""` exactly when every selector's text is blank. Otherwise it is the text of the first selector whose text is non-blank. |
| Resolver.AnyPresent | backend/browserless-mode.js:132 | The authenticity badge (`some(elementExists)`) is true exactly when some selector of the chain matches an element. |
| Resolver.NonEmptyTexts | backend/browserless-mode.js:137-142 | The pushed labels are non-empty texts of the matches, and every non-empty text appears. `Resolver.NonEmptyTextsConcat` and `Resolver.NonEmptyTextsOne` pin down the order and the multiplicity. |
| Resolver.NonEmptyTextsConcat | backend/browserless-mode.js:137-142 | Reading a list in two parts gives the labels of each part in turn, with document order and repeats kept. |
| Resolver.NonEmptyTextsOne | backend/browserless-mode.js:138-140 | One element contributes its text exactly when the text is non-empty. |
| Resolver.ReadsFirstTextUnique | backend/browserless-mode.js:112-122 | The first-match reading of a chain determines a single text. |
| Resolver.FirstLabels | backend/browserless-mode.js:135-144 | The labels are those of the first selector variant that yields any (`FirstLabelledAt`), and none come from a later variant. They are empty exactly when no variant yields a label (`NoLabels`). No label is empty. |
| Resolver.FirstChildCount | backend/browserless-mode.js:146-153 | The image count is 0 when no container matches. Otherwise it is the child count of the first container found, in chain order. |
| Resolver.OnlySourceDecides | backend/browserless-mode.js:98-109 | When a page exposes a field under just one selector of its chain, every chain reading equals reading that selector alone, whatever its position. |
| Extraction.Extract | backend/browserless-mode.js:124-164 | The discounted price, when non-blank, wins over the regular price. The price is `""` exactly when both chains are blank. Condition, description, likes and posting date are each the text of the first selector of their chain with non-blank text, or `""` when there is none (`ReadsFirstText`, which fixes a single value by `Resolver.ReadsFirstTextUnique`). The badge holds exactly when some badge selector matches. The labels and image count follow the first-variant rules above. Missing fields never fail. |
| Extraction.FallbackMarkupExtractsAlike | backend/browserless-mode.js:98-109 | Two pages that expose the same elements, each under a single selector of each chain, possibly different ones, extract the same record. Old or fallback markup reads like current markup. |
| Extraction.HeadsSuffice | backend/browserless-mode.js:98-109 | On markup answering only the first selector of each chain, the chains read exactly what their first selectors read alone. |
| Scraper.ListingDetails | backend/scraper.js:3-66 | The early record reads each field from its single selector. The discounted price is preferred when non-empty. The badge means the element exists. The labels are the non-empty texts. The image count is the container's child count, or 0. The colour is read too. |
| Scraper.HardenedAgreesOnCurrentMarkup | backend/scraper.js:14-25 | On markup answering only the current, versioned selectors, both variants extract the same record apart from the colour, which only the early one reads. |
| ListingUrls.IdAt | backend/browserless-mode.js:378 | True exactly when the regular expression `/\/listings\/\d+-/` has a match starting at the given position. |
| ListingUrls.ValidListingUrlMeans | backend/browserless-mode.js:374-379 | A URL passes the listing test exactly when it starts with the marketplace's `/listings/` prefix, contains `/similar` nowhere, and has `/listings/` followed by at least one digit and `-` somewhere. |
| ListingUrls.IdFrom | backend/browserless-mode.js:378 | True exactly when some match of that expression starts at or after the given position. |
| ListingUrls.KeepValid | backend/browserless-mode.js:374-379 | The filter keeps only hrefs that pass the listing-URL test and keeps every one that does. `ListingUrls.KeepValidConcat` and `ListingUrls.KeepValidOne` pin down the order and the multiplicity. |
| ListingUrls.KeepValidConcat | backend/browserless-mode.js:374-379 | Filtering a list in two parts gives the kept hrefs of each part in turn, with order and repeats kept. |
| ListingUrls.KeepValidOne | backend/browserless-mode.js:374-379 | One href is kept exactly when it is a valid listing URL. |
| Seqs.DedupMerge | backend/browserless-mode.js:382 | Merging new links into a duplicate-free list keeps that list as a prefix and appends only values that are new. |
| Seqs.AppendNewConcat | backend/scraper.js:217 | Feeding two batches of links into the set one after the other is the same as feeding their concatenation. |
| Seqs.Chunks | backend/browserless-mode.js:471-472 | The `slice(i, i + batchSize)` batches concatenate back to the input. Every batch is non-empty and at most `batchSize` long, and all but the last are full. |
| Conditions.LookupKeyIndex | backend/browserless-mode.js:219-261 | `"new"` in any case finds the first condition entry. A taxonomy name in any case finds its own 1-based position. Nothing else is found. |
| Conditions.IndexIn | backend/scraper.js:139-145 | The `conditionMap` lookup yields the 1-based position of the first entry equal to the key, or nothing when the key is not in the list. A JavaScript object keeps the last write for a repeated key, not the first. The two agree here because the five condition names are distinct (`Conditions.ConditionNamesIndexed`). |
| BrowserlessMode.TemplateHit | backend/browserless-mode.js:245-284 | A matching `{value}` selector is clicked whatever its state and counts as found. Otherwise, for a known condition, the `{index}` selector at the condition's 1-based list position counts as found. That checkbox is clicked exactly when it is not yet ticked. A template misses exactly when neither selector matches. |
| BrowserlessMode.FindCondition | backend/browserless-mode.js:245-286 | The first template that finds a checkbox decides the outcome. The search reports failure exactly when every template misses. |
| BrowserlessMode.ApplyFilter | backend/browserless-mode.js:193-308 | An empty value is a no-op. A missing filter panel and a non-condition filter type each end the step without effect, exactly under those conditions. The filter is applied exactly when some condition template finds a checkbox for the normalised value, and then the first such template decides. A reported success names a present checkbox. A box left unclicked was already ticked. The direct `{value}` probe clicks whatever the box's state. The step never aborts. |
| BrowserlessMode.KnownConditionUsesItsIndex | backend/browserless-mode.js:219-284 | A known condition, or `"new"`, selects the checkbox at its 1-based list position, when no `{value}` probe answers first. An already ticked box still counts as success, without a click. |
| Scraper.ApplyFilter | backend/scraper.js:109-181 | Each outcome holds exactly under its conditions. A missing filter panel is the `waitForSelector` timeout, which the step's `catch` absorbs. Only an unticked box of a known condition is a success. A ticked box reports failure. A known condition whose checkbox is missing throws inside the step and is caught. |
| Scraper.TickedBoxDisagreement | backend/scraper.js:161-165 | For an already-ticked box of a known condition, the hardened variant reports success and the early variant reports failure. |
| BrowserlessMode.Step | backend/browserless-mode.js:333-394 | One pass counts an attempt. It keeps the known links as a prefix and appends only unseen valid links. The idle counter resets when any valid link is visible, and otherwise rises by one, plus one more when the wait timed out. |
| BrowserlessMode.NonEmptyHrefsConcat | backend/browserless-mode.js:368-372 | The hrefs of a list read in two parts are those of each part in turn, with document order and repeats kept. |
| BrowserlessMode.NonEmptyHrefsOne | backend/browserless-mode.js:369-371 | One element contributes its href exactly when it has one. |
| BrowserlessMode.Loop | backend/browserless-mode.js:332-395 | The loop stops only when its condition fails, after at most 20 passes. Its links are then duplicate-free and extend the initial list. They are exactly the de-duplicated links of the passes it made. |
| BrowserlessMode.LoopStopsAtFirstFailedCondition | backend/browserless-mode.js:332-395 | The loop makes exactly the passes a `while` makes: the condition held before each pass, and the loop returns the state after the last one. |
| BrowserlessMode.IdleObservationsStop | backend/browserless-mode.js:342-394 | Passes showing no valid link end the loop once the idle counter they build up reaches 3, from any state, even below the size target and the attempt bound. |
| BrowserlessMode.TimedOutIdlePassesEndHarvest | backend/browserless-mode.js:353-356 | A link-less pass whose wait timed out counts twice. With one more link-less pass it ends the harvest. |
| BrowserlessMode.ThreeIdlePassesEndHarvest | backend/browserless-mode.js:387-391 | Three consecutive passes showing no valid link end the harvest, even below the size target and the attempt bound. |
| BrowserlessMode.GatheredLinksAreDiscovered | backend/browserless-mode.js:310-401 | The harvest returns at most 20 distinct valid listing URLs. They form a prefix of the order in which the passes revealed them. |
| Scraper.Loop | backend/scraper.js:191-237 | The loop makes at most 20 passes. It ends only when its condition fails or a pass takes the `break`. Its links are then duplicate-free and extend the initial list. |
| Scraper.Step | backend/scraper.js:192-235 | One pass counts an attempt. It keeps the known links as a prefix and appends only unseen links. It takes the `break` exactly when the page height stayed the same and at least 10 links are known. |
| Scraper.LoopStopsAtFirstExit | backend/scraper.js:191-237 | The loop makes exactly the passes a `while` with a `break` makes: the condition held and no `break` was taken before each pass, and it returns the state after the last one. |
| Scraper.LoopBreaksOnPlateau | backend/scraper.js:222-235 | The loop ends on the `break` exactly when its last pass left the page height unchanged with at least 10 links known. |
| Scraper.PlateauEndsHarvest | backend/scraper.js:222-235 | A pass that leaves the page height unchanged with at least 10 links known ends the loop right after it. |
| Scraper.LoopLinksInDiscoveryOrder | backend/scraper.js:217 | The loop's links are the known ones followed by the new links its passes revealed, in the order first seen. |
| Scraper.FewLinksUseEveryPass | backend/scraper.js:222-236 | When the passes reveal fewer than 10 distinct valid links in all, no plateau ends the loop and all 20 passes are made. |
| Scraper.GatheredLinksAreDiscovered | backend/scraper.js:183-243 | The harvest returns at most 30 distinct valid listing URLs, a prefix of their discovery order. |
| BrowserlessMode.ScrapeListingDetails | backend/browserless-mode.js:440-467 | When the tab opens and closes cleanly, a related listing yields its details with its link attached. A navigation or readiness failure yields `{ link, error }` with the thrown message instead. |
| BrowserlessMode.ScrapeMultipleListings | backend/browserless-mode.js:469-484 | There is one record per input link, in input order, each carrying its own link. When opening and closing tabs succeed, a navigation failure is confined to its own record. |
| Scraper.ScrapeListingDetails | backend/scraper.js:245-253 | A related listing yields its details with its link, or the rejection of its navigation. |
| Batches.AllOf | backend/scraper.js:259 | `Promise.all` over a batch resolves exactly when every item's step resolves, and then gives the values in item order. Otherwise it rejects with the error of an item that failed. |
| Batches.AllOfBatches | backend/scraper.js:255-263 | The batches are awaited in turn. The whole run resolves exactly when every item of every batch resolves, with all values in order. Otherwise it rejects with the error of a failed item from the first batch that has one, and every earlier batch resolved. |
| Batches.MapBatches | backend/browserless-mode.js:469-484 | With a step that never rejects, batching keeps exactly one result per item, in item order. |
| Scraper.ScrapeMultipleListings | backend/scraper.js:255-263 | Batch scraping is all or nothing. It gives every record in link order exactly when all links load. Otherwise it rejects with the message of a failed link from the first batch that has one, and every earlier batch loaded. |
| Navigation.LastCategoryAnchor | backend/browserless-mode.js:525-528 | Picks the last anchor of a breadcrumb trail that leads to a category (a non-empty href outside `/listings/`). There is none exactly when no anchor qualifies. |
| Navigation.BreadcrumbChoice | backend/browserless-mode.js:522-532 | The choice is the last category anchor of the first breadcrumb list that has one (`BreadcrumbTarget`). There is none exactly when no list has one (`NoUsableBreadcrumb`). |
| Navigation.SimilarChoice | backend/browserless-mode.js:550-559 | The fallback is the first category anchor of the first selector that finds one, in document order (`SimilarTarget`). There is none exactly when no selector finds one (`NoCategoryLink`). |
| BrowserlessMode.NavigateToCategory | backend/browserless-mode.js:513-565 | A breadcrumb is used exactly when one is usable, and the target is that breadcrumb's last category anchor. The "similar items" link is used exactly when no breadcrumb is usable and a category link exists, and the target is the first such link. There is no route exactly when neither exists. Any target is a category link. |
| BrowserlessMode.ScrapeGrailedListing | backend/browserless-mode.js:486-617 | When opening and closing tabs, closing the browser and taking the debugging screenshot succeed, every run closes the browser exactly once, as its last effect. A run rejects exactly when it first takes the error screenshot. A rejected run never reaches the filter. |
| BrowserlessMode.SuccessEffects | backend/browserless-mode.js:596-605 | A resolved run takes the debugging screenshot exactly when no link was gathered, then closes the browser. It never takes the error screenshot. |
| BrowserlessMode.NoRouteRejects | backend/browserless-mode.js:562-564 | With neither a breadcrumb nor a "similar items" link, the run rejects with the navigation error. |
| BrowserlessMode.FilterOnlyForListedCondition | backend/browserless-mode.js:587-590 | The filter runs exactly when the listing showed a condition and the category page was reached, and it runs with that condition. |
| BrowserlessMode.SuccessAssemblesResult | backend/browserless-mode.js:594-606 | A resolved run carries the original listing with its URL and the batch records of the gathered links. |
| Scraper.Breadcrumb | backend/scraper.js:282-291 | Picks the last category anchor of the single breadcrumb list. No other list is tried. |
| Scraper.ScrapeGrailedListing | backend/scraper.js:265-310 | The browser is closed on both paths. The filter runs exactly when the listing loaded, had a usable breadcrumb and showed a condition, and it runs with that condition. |
| Scraper.CategoryRun | backend/scraper.js:294-309 | After the breadcrumb click, the filter runs exactly when the listing's record shows a condition, and with that condition. The run resolves exactly when every gathered link loads, and then carries the original record unchanged. A batch rejection rejects the run. The browser is closed once, as the only effect. |
| Scraper.NoBreadcrumbRejects | backend/scraper.js:293 | A listing without a usable breadcrumb rejects with "Could not find a valid category breadcrumb link", before the filter. |
| Scraper.ResolvesOnlyWhenEveryLinkLoads | backend/scraper.js:296-304 | A run resolves exactly when the listing loaded, had a breadcrumb, and every gathered link loaded. It then carries the original record and one record per gathered link, in order. |
| Conditions.Normalize | backend/browserless-mode.js:219-221 | The `"new"` alias never survives normalisation. A value the filter list knows, or the alias, stays known, and no other value becomes known. `Conditions.NormalizeIdempotent` shows a second pass changes nothing. |
| Conditions.NormalizeIdempotent | backend/browserless-mode.js:219-221 | Normalising twice is normalising once. |
| Conditions.ConditionNamesIndexed | backend/browserless-mode.js:236-259 | Each condition name maps to its own 1-based position: the names are distinct. |
| Scraper.ConditionCheckbox | backend/scraper.js:122-145 | A checkbox selector exists exactly when the lower-cased condition is `"new"` or one of the five condition names. `"new"` selects the first list position. A name selects the `li:nth-child` box at its own 1-based position. |
| BrowserlessMode.CategoryRun | backend/browserless-mode.js:587-606 | Once the category page is reached, the run resolves with the original listing's record unchanged. The filter is applied exactly when that record's condition is non-empty. The browser is closed once, and no error screenshot is taken. |
| BrowserlessMode.FailedRun | backend/browserless-mode.js:607-615 | A failure rejects with its own message, after an error screenshot and a single browser close, and applies no filter. |

## Left out

- Timing is not modelled: timeouts, `waitForTimeout`, scroll distances, animation waits and the pauses between batches. A wait that only delays is dropped. A wait whose failure changes control flow becomes an input: a `Broken` visit, or `timedOut` in an observation.
- Popup handling, anti-bot handling, `launchBrowser`, the viewport and user agent, and `ensureReactContent` are side effects that change no modelled value, so they are not modelled.
- Concurrency is not modelled. The pages of one batch are opened in parallel. Because the early scraper's `Promise.all` rejects with whichever failure comes first in time, `Batches.AllOf` promises only "the error of some failed item". Its body picks the first failed item in item order.
- CSS selector syntax is not interpreted, and every selector is treated as valid. In a browser, two selector lists of the hardened scraper would throw a `SyntaxError`:
  - The first condition template's direct `{value}` probe leaves `li:nth-child({index})` unfilled.
  - The "similar items" selectors use the jQuery-only `:contains(...)`.

  Read literally, those queries would abort the hardened condition filter, where the step's `catch` absorbs the error. They would also reject the run whenever the breadcrumb is missing. The model gives both steps the behaviour their code structure describes.
- The effect of the condition filter on the category page is not modelled: the harvest observations are inputs. A collapsed filter section that is expanded before the click is not modelled either.
- `toLowerCase` is modelled for ASCII letters only.
- The `$` replacement patterns of `String.prototype.replace` are not modelled. At backend/browserless-mode.js:247 the `{value}` hole is filled with the listing's condition text, which is read from the page. In JavaScript, a condition text containing `$&`, `` $` ``, `$'` or `$$` would be expanded. `BrowserlessMode.ValueSelector` inserts it literally, so for such a text the model probes a different selector than the browser would.
- Prototype keys such as `"constructor"` in `conditionMap` are not modelled: the lookup is over the five names only.
- Condition positions are one-digit numbers, as the five-entry taxonomy needs.
- The early scraper does not close a detail page whose navigation threw. Page handles are not modelled, so this leak is not represented.
- In the hardened `catch` block, `page.screenshot` could itself throw before `browser.close`. The model assumes the screenshot succeeds.
- BrowserlessMode.CategoryRun: the debugging screenshot (`debug-no-listings.png`, backend/browserless-mode.js:598) is taken inside the `try`. If it threw, the `catch` block would take the error screenshot and close the browser, and the run would reject after the filter had run. Its effects would then be the debugging screenshot, the error screenshot and the close. The model assumes this screenshot succeeds.
- BrowserlessMode.ScrapeListingDetails: opening the tab (`browser.newPage()`) happens before the `try`, so its failure would reject the whole batch rather than become a `{ link, error }` record. Closing the tab in the `finally` block could likewise reject. Tab handles are not modelled, so both are assumed to succeed.
- BrowserlessMode.ScrapeMultipleListings: only navigation and readiness failures are confined to their own record. A failing `newPage()` or `detailPage.close()` would reject the batch's `Promise.all` and with it the run. The model does not represent those failures.
- BrowserlessMode.ScrapeGrailedListing: the success path's debugging screenshot and `browser.close()` both sit inside the `try`. If either threw, the `catch` block would take the error screenshot and close the browser, after the filter had run. A failing close would close the browser a second time. The model assumes both calls succeed, as it assumes for tab handling. So "closes exactly once", "rejects exactly when it first takes the error screenshot" and "a rejected run never reaches the filter" are promised only for runs whose browser calls succeed.
- Scraper.ScrapeGrailedListing: the success path's `browser.close()` (backend/scraper.js:303) sits inside the `try`. If it threw, the `catch` block would close the browser a second time and reject the run, even though every gathered link loaded. The model assumes that close succeeds. So "closed once" here and in `Scraper.CategoryRun`, and the "resolves exactly when every gathered link loads" of `Scraper.ResolvesOnlyWhenEveryLinkLoads`, hold only for runs whose close succeeds.
- `ensurePageLoaded` in the hardened scraper does not catch its readiness timeout, so a slow page rejects the run or the related listing. The model follows the code here: such a page is a `Broken` visit.
- The harvest target of 100 links only bounds the loop. Both variants then cut the result to 20 (hardened) or 30 (early).
- The hardened idle counter resets whenever a pass shows any valid link, even one already known. It can rise by two in one pass: once for the timed-out wait and once for the empty pass. The model follows the code.
- BrowserlessMode.GatherListingLinks: the function's own contract states only the length bound. The distinctness, validity and discovery-prefix properties are stated by `BrowserlessMode.GatheredLinksAreDiscovered`.
- Scraper.GatherListingLinks: the function's own contract states only the length bound. The other properties are stated by `Scraper.GatheredLinksAreDiscovered`.
- The Express server, the JSON export script and the React front end are outside the scraping core and are not modelled.

=== FILE: batches.dfy ===
/** Working through a list in consecutive batches, as both
    `scrapeMultipleListings` versions do: each batch is handed to
    `Promise.all`, and the batch results are pushed in order. The per-item
    step is a parameter, so these facts hold whatever one item yields. */
module Batches {
  import opened Wrappers
  import opened Seqs

  /** Batches whose per-item step never rejects: every result, in input
      order. */
  function MapBatches<X, T>(f: X -> T, batches: seq<seq<X>>): (r: seq<T>)
    ensures |r| == |Flatten(batches)|
    ensures forall i :: 0 <= i < |r| ==> r[i] == f(Flatten(batches)[i])
    decreases |batches|
  {
    if |batches| == 0 then []
    else
      var batch := batches[0];
      var rest := MapBatches(f, batches[1..]);
      var first := seq(|batch|, i requires 0 <= i < |batch| => f(batch[i]));
      assert Flatten(batches) == batch + Flatten(batches[1..]);
      assert forall i :: |batch| <= i < |first + rest| ==> (first + rest)[i] == rest[i - |batch|];
      first + rest
  }

  /** Every item's step resolves. */
  predicate AllSucceed<X, T, E>(f: X -> Result<T, E>, xs: seq<X>) {
    forall i :: 0 <= i < |xs| ==> f(xs[i]).Success?
  }

  /** `ts` are the items' resolved values, in order. */
  predicate ValuesOf<X, T(==), E(==)>(f: X -> Result<T, E>, xs: seq<X>, ts: seq<T>) {
    && |ts| == |xs|
    && forall i :: 0 <= i < |xs| ==> f(xs[i]) == Success(ts[i])
  }

  /** `e` is the rejection of some item. */
  predicate ErrorOf<X, T(==), E(==)>(f: X -> Result<T, E>, xs: seq<X>, e: E) {
    exists i :: 0 <= i < |xs| && f(xs[i]) == Failure(e)
  }

  /** All or nothing: every value, in order, exactly when every item
      resolves; otherwise the rejection of an item that did not. */
  predicate Outcome<X, T(==), E(==)>(f: X -> Result<T, E>, xs: seq<X>, r: Result<seq<T>, E>) {
    && (r.Success? <==> AllSucceed(f, xs))
    && (r.Success? ==> ValuesOf(f, xs, r.value))
    && (r.Failure? ==> ErrorOf(f, xs, r.error))
  }

  /** `batches[b]` is the first batch with a rejected item, every earlier
      batch resolved, and `e` is a rejection from `batches[b]`. */
  ghost predicate FirstFailingBatch<X, T, E>(f: X -> Result<T, E>, batches: seq<seq<X>>, b: int, e: E) {
    && 0 <= b < |batches|
    && (forall j :: 0 <= j < b ==> AllSucceed(f, batches[j]))
    && ErrorOf(f, batches[b], e)
  }

  /** Values already gathered for earlier items, in front of the outcome
      for the later ones. */
  function Prepend<T, E>(ts: seq<T>, r: Result<seq<T>, E>): Result<seq<T>, E> {
    match r
    case Failure(e) => Failure(e)
    case Success(us) => Success(ts + us)
  }

  /** `Promise.all` over one batch. Which rejection wins depends on timing;
      this picks the first in item order. */
  function AllOf<X, T(==), E(==)>(f: X -> Result<T, E>, xs: seq<X>): (r: Result<seq<T>, E>)
    ensures Outcome(f, xs, r)
    decreases |xs|
  {
    if |xs| == 0 then Success([])
    else
      var rest := AllOf(f, xs[1..]);
      assert [xs[0]] + xs[1..] == xs;
      match f(xs[0])
      case Failure(e) =>
        FailurePrefix(f, [xs[0]], xs[1..], e);
        Failure(e)
      case Success(t) =>
        ConcatParts(f, [xs[0]], xs[1..], [t], rest);
        Prepend([t], rest)
  }

  /** The batches in turn, stopping at the first rejected one: a rejection
      comes from the first batch that has a failing item, and the batches
      after it are never started. */
  function AllOfBatches<X, T(==), E(==)>(f: X -> Result<T, E>, batches: seq<seq<X>>): (r: Result<seq<T>, E>)
    ensures Outcome(f, Flatten(batches), r)
    ensures r.Failure? ==> exists b :: FirstFailingBatch(f, batches, b, r.error)
    decreases |batches|
  {
    if |batches| == 0 then Success([])
    else
      var head := batches[0];
      assert Flatten(batches) == head + Flatten(batches[1..]);
      match AllOf(f, head)
      case Failure(e) =>
        FailurePrefix(f, head, Flatten(batches[1..]), e);
        assert FirstFailingBatch(f, batches, 0, e);
        Failure(e)
      case Success(ts) =>
        var rest := AllOfBatches(f, batches[1..]);
        ConcatParts(f, head, Flatten(batches[1..]), ts, rest);
        if rest.Failure? then
          FailingBatchShift(f, batches, rest.error);
          Prepend(ts, rest)
        else
          Prepend(ts, rest)
  }

  /** Behind a first batch that resolves, the first failing batch moves up
      by one. */
  lemma FailingBatchShift<X, T, E>(f: X -> Result<T, E>, batches: seq<seq<X>>, e: E)
    requires |batches| > 0 && AllSucceed(f, batches[0])
    requires exists b :: FirstFailingBatch(f, batches[1..], b, e)
    ensures exists b :: FirstFailingBatch(f, batches, b, e)
  {
    var b :| FirstFailingBatch(f, batches[1..], b, e);
    forall j | 0 < j < b + 1 ensures AllSucceed(f, batches[j]) {
      assert batches[j] == batches[1..][j - 1];
    }
    assert FirstFailingBatch(f, batches, b + 1, e);
  }

  /** A rejection among the first items rejects the whole list. */
  lemma FailurePrefix<X, T, E>(f: X -> Result<T, E>, a: seq<X>, b: seq<X>, e: E)
    requires ErrorOf(f, a, e)
    ensures Outcome(f, a + b, Failure(e))
  {
    var i :| 0 <= i < |a| && f(a[i]) == Failure(e);
    assert (a + b)[i] == a[i];
  }

  /** Gluing the values of items that all resolved to the outcome for the
      items after them. */
  lemma ConcatParts<X, T, E>(f: X -> Result<T, E>, a: seq<X>, b: seq<X>, ta: seq<T>, rb: Result<seq<T>, E>)
    requires ValuesOf(f, a, ta)
    requires Outcome(f, b, rb)
    ensures Outcome(f, a + b, Prepend(ta, rb))
  {
    var ab := a + b;
    assert forall i :: 0 <= i < |a| ==> ab[i] == a[i];
    assert forall i :: 0 <= i < |b| ==> ab[|a| + i] == b[i];
    if AllSucceed(f, b) {
      forall i | 0 <= i < |ab| ensures f(ab[i]).Success? {
        if i >= |a| { assert ab[i] == b[i - |a|]; }
      }
    }
    if rb.Success? {
      var ts := ta + rb.value;
      forall i | 0 <= i < |ab| ensures f(ab[i]) == Success(ts[i]) {
        if i >= |a| { assert ab[i] == b[i - |a|] && ts[i] == rb.value[i - |a|]; }
      }
    }
    if rb.Failure? {
      var i :| 0 <= i < |b| && f(b[i]) == Failure(rb.error);
      assert ab[|a| + i] == b[i];
    }
  }
}

=== FILE: browserless_mode.dfy ===
/** backend/browserless-mode.js: the hardened scraper. Every selector is a
    fallback chain, the harvest loop has an idle counter, a failing related
    listing becomes a `{ link, error }` record, and a missing breadcrumb falls
    back to a "similar items" anchor. */
module BrowserlessMode {
  import opened Wrappers
  import opened Strings
  import opened Seqs
  import opened Dom
  import opened ListingUrls
  import opened Resolver
  import opened Conditions
  import opened Records
  import opened Extraction
  import opened Navigation
  import opened Batches

  // ---------------------------------------------------------------------
  // Listing extraction (`getListingDetails`)
  // ---------------------------------------------------------------------

  const PriceSelectors: seq<Selector> :=
    [".MainContent_price__RSyWC span", ".price span", "[data-cy='listing-price']"]
  const DiscountedPriceSelectors: seq<Selector> :=
    [".MainContent_price__RSyWC span.Price_onSale__qffVR", ".price span.on-sale", "[data-cy='listing-sale-price']"]
  const ConditionSelectors: seq<Selector> :=
    [".MainContent_details__2FR05 p:nth-child(6) > span", ".listing-details p:nth-child(6) > span", "[data-cy='listing-condition']"]
  const DescriptionSelectors: seq<Selector> :=
    [".MainContent_details__2FR05 h1", ".listing-details h1", "[data-cy='listing-title']"]
  const LikesSelectors: seq<Selector> :=
    [".MainContent_saveLikes__Yq0PD button > span", ".save-likes button > span", "[data-cy='listing-likes']"]
  const AuthenticBadgeSelectors: seq<Selector> :=
    [".AuthenticationBadge_clickable__HphPo span > span", ".authentication-badge span > span", "[data-cy='authentication-badge']"]
  const PostingDateSelectors: seq<Selector> :=
    [".Metadata_metadata__eYo0L > span:nth-child(2)", ".metadata > span:nth-child(2)", "[data-cy='listing-date']"]
  const LabelSelectors: seq<Selector> :=
    [".Details_designers__NnQ20 > a", ".designers > a", "[data-cy='designer-link']"]
  const ThumbnailSelectors: seq<Selector> :=
    [".Thumbnails_thumbnails__KvRoX.PhotoGallery_thumbnails__VlX1l", ".thumbnails", "[data-cy='listing-thumbnails']"]

  /** The selector table of `getListingDetails`, newest markup first. */
  const HardenedChains: Chains := Chains(
    PriceSelectors, DiscountedPriceSelectors, ConditionSelectors, DescriptionSelectors, LikesSelectors,
    AuthenticBadgeSelectors, PostingDateSelectors, LabelSelectors, ThumbnailSelectors)

  /** `getListingDetails(page)`: the record read through the fallback
      chains; this scraper has no colour field. */
  function ListingDetails(p: Page): Details {
    Extract(p, HardenedChains)
  }

  // ---------------------------------------------------------------------
  // Condition filter (`applyFilter`)
  // ---------------------------------------------------------------------

  const FilterPanelSelectors: seq<Selector> :=
    [".filter-bottom", "ul.-custom-refinements", ".Collapsible-module__collapsibleContent___KpYrl", "[data-cy='filters']"]

  /** `possibleSelectors`: the indexed template of the early scraper, then
      templates with a `{value}` hole. */
  const ConditionTemplates: seq<Selector> := [
    IndexedTemplate,
    ".filters-section:has(h3:contains('Condition')) input[value='{value}']",
    "[data-cy='condition-filter-{value}']",
    "input[name='condition'][value='{value}']",
    "label:contains('{value}') input"]

  const ValueHole: string := "{value}"

  /** `baseSelector.replace('{value}', value.toLowerCase())` */
  function ValueSelector(template: Selector, value: string): Selector {
    ReplaceFirst(template, ValueHole, ToLower(value))
  }

  /** What one template finds: the `{value}` selector's checkbox is clicked
      whatever its state; otherwise, for a known condition, the `{index}`
      selector's checkbox is clicked only when it is not yet checked, and
      counts as found either way. */
  function TemplateHit(p: Page, template: Selector, value: string): (r: Option<FilterOutcome>)
    ensures r.Some? ==> r.value.Applied? && Present(p, r.value.selector)
    ensures r.Some? && !r.value.clicked ==> QueryAll(p, r.value.selector)[0].checked
    ensures Present(p, ValueSelector(template, value)) ==>
              r == Some(Applied(ValueSelector(template, value), true))
    ensures r.None? <==> && !Present(p, ValueSelector(template, value))
                         && (ConditionIndex(ToLower(value)).Some? ==>
                               !Present(p, IndexSelector(template, ConditionIndex(ToLower(value)).value)))
    ensures r.Some? && !Present(p, ValueSelector(template, value)) ==>
              && ConditionIndex(ToLower(value)).Some?
              && r.value.selector == IndexSelector(template, ConditionIndex(ToLower(value)).value)
              && (r.value.clicked <==> !QueryAll(p, r.value.selector)[0].checked)
  {
    var direct := ValueSelector(template, value);
    if Present(p, direct) then Some(Applied(direct, true))
    else match ConditionIndex(ToLower(value))
      case None => None
      case Some(k) =>
        var indexed := IndexSelector(template, k);
        if Present(p, indexed) then Some(Applied(indexed, !QueryAll(p, indexed)[0].checked))
        else None
  }

  /** `templates[i]` is the first template that finds a checkbox. */
  predicate FirstHitAt(p: Page, value: string, templates: seq<Selector>, i: int) {
    && 0 <= i < |templates|
    && TemplateHit(p, templates[i], value).Some?
    && forall j :: 0 <= j < i ==> TemplateHit(p, templates[j], value).None?
  }

  /** Skipping a first template that misses shifts the first hit by one. */
  lemma FirstHitShift(p: Page, value: string, templates: seq<Selector>, i: int)
    requires |templates| > 0 && TemplateHit(p, templates[0], value).None?
    requires FirstHitAt(p, value, templates[1..], i)
    ensures FirstHitAt(p, value, templates, i + 1) && templates[i + 1] == templates[1..][i]
  {
    forall j | 0 < j < i + 1 ensures TemplateHit(p, templates[j], value).None? {
      assert templates[j] == templates[1..][j - 1];
    }
  }

  /** The `for (const baseSelector of possibleSelectors)` search: the first
      template that finds a checkbox decides; none finding one reports
      failure. */
  function FindCondition(p: Page, value: string, templates: seq<Selector>): (r: FilterOutcome)
    ensures r.Applied? || r.NotApplied?
    ensures r.NotApplied? <==> forall i :: 0 <= i < |templates| ==> TemplateHit(p, templates[i], value).None?
    ensures r.Applied? ==> exists i :: FirstHitAt(p, value, templates, i) && TemplateHit(p, templates[i], value) == Some(r)
    decreases |templates|
  {
    if |templates| == 0 then NotApplied
    else match TemplateHit(p, templates[0], value)
      case Some(hit) =>
        assert FirstHitAt(p, value, templates, 0);
        hit
      case None =>
        var r := FindCondition(p, value, templates[1..]);
        assert r.Applied? ==> exists i :: FirstHitAt(p, value, templates, i) && TemplateHit(p, templates[i], value) == Some(r) by {
          if r.Applied? {
            var i :| FirstHitAt(p, value, templates[1..], i) && TemplateHit(p, templates[1..][i], value) == Some(r);
            FirstHitShift(p, value, templates, i);
          }
        }
        assert r.NotApplied? ==> forall i :: 0 <= i < |templates| ==> TemplateHit(p, templates[i], value).None? by {
          if r.NotApplied? {
            forall i | 0 < i < |templates| ensures TemplateHit(p, templates[i], value).None? {
              assert templates[i] == templates[1..][i - 1];
            }
          }
        }
        r
  }

  /** `applyFilter(page, filterType, value)` on the browse page. */
  function ApplyFilter(p: Page, filterType: string, value: string): (r: FilterOutcome)
    ensures r.Skipped? <==> value == ""
    ensures r.PanelMissing? <==> value != "" && !AnyPresent(p, FilterPanelSelectors)
    ensures r.OtherFilter? <==> value != "" && AnyPresent(p, FilterPanelSelectors) && ToLower(filterType) != ConditionFilterType
    ensures r.Succeeded() ==> && value != ""
                              && AnyPresent(p, FilterPanelSelectors)
                              && ToLower(filterType) == ConditionFilterType
                              && Present(p, r.selector)
    ensures r.Applied? && !r.clicked ==> QueryAll(p, r.selector)[0].checked
    ensures r.Applied? <==> && value != ""
                            && AnyPresent(p, FilterPanelSelectors)
                            && ToLower(filterType) == ConditionFilterType
                            && exists i :: 0 <= i < |ConditionTemplates| && TemplateHit(p, ConditionTemplates[i], Normalize(value)).Some?
    ensures r.Applied? ==> exists i :: && FirstHitAt(p, Normalize(value), ConditionTemplates, i)
                                       && TemplateHit(p, ConditionTemplates[i], Normalize(value)) == Some(r)
    ensures !r.Aborted?
  {
    if value == "" then Skipped
    else if !AnyPresent(p, FilterPanelSelectors) then PanelMissing
    else if ToLower(filterType) != ConditionFilterType then OtherFilter
    else FindCondition(p, Normalize(value), ConditionTemplates)
  }

  /** A listing condition that names a taxonomy entry (`"new"` standing for
      the first) ticks the checkbox at that entry's 1-based position in the
      indexed filter list, when no `{value}` selector answers first; a box
      that is already ticked still counts as success, without a click. */
  lemma KnownConditionUsesItsIndex(p: Page, value: string, k: nat)
    requires AnyPresent(p, FilterPanelSelectors)
    requires k < |ConditionNames|
    requires ToLower(value) == ConditionNames[k] || (k == 0 && ToLower(value) == NewAlias)
    requires !Present(p, ValueSelector(ConditionTemplates[0], Normalize(value)))
    requires Present(p, IndexSelector(ConditionTemplates[0], k + 1))
    ensures ApplyFilter(p, ConditionFilterType, value)
            == Applied(IndexSelector(ConditionTemplates[0], k + 1),
                       !QueryAll(p, IndexSelector(ConditionTemplates[0], k + 1))[0].checked)
  {
    KnownConditionKey(value, k);
    ConditionFilterTypeIsLower();
    var v := Normalize(value);
    var t := ConditionTemplates[0];
    var hit := Applied(IndexSelector(t, k + 1), !QueryAll(p, IndexSelector(t, k + 1))[0].checked);
    assert TemplateHit(p, t, v) == Some(hit);
    assert FindCondition(p, v, ConditionTemplates) == hit;
  }

  /** A known condition is a non-empty value whose normalised lookup key is
      found at position `k + 1`. */
  lemma KnownConditionKey(value: string, k: nat)
    requires k < |ConditionNames|
    requires ToLower(value) == ConditionNames[k] || (k == 0 && ToLower(value) == NewAlias)
    ensures value != ""
    ensures ConditionIndex(ToLower(Normalize(value))) == Some(k + 1)
  {
    assert ToLower(value) != "" by {
      if ToLower(value) == ConditionNames[k] {
        assert |ConditionNames[k]| > 0;
      }
    }
    LookupKeyIndex(value);
  }

  // ---------------------------------------------------------------------
  // Link harvesting (`gatherListingLinks`)
  // ---------------------------------------------------------------------

  const CardLinkSelectors: seq<Selector> :=
    [".feed-item a", ".listing-item a", "[data-cy=\"product-card\"] a", ".ProductList_card__7DL9f a"]

  /** `maxAttempts` */
  const MaxAttempts: nat := 20
  /** The loop also stops once this many links are known. */
  const LinkTarget: nat := 100
  /** Consecutive idle observations that end the loop. */
  const IdleLimit: nat := 3
  /** `listingLinks.slice(0, 20)` */
  const LinkCap: nat := 20

  /** `if (link.href) allLinks.push(link.href)` for one selector's matches. */
  function NonEmptyHrefs(es: seq<Element>): (r: seq<string>)
    ensures forall k :: 0 <= k < |r| ==> r[k] != ""
    decreases |es|
  {
    if |es| == 0 then []
    else (if es[0].href != "" then [es[0].href] else []) + NonEmptyHrefs(es[1..])
  }

  /** The hrefs of a list read in two parts are those of each part in turn,
      in document order and with repeats kept. */
  lemma {:induction false} NonEmptyHrefsConcat(a: seq<Element>, b: seq<Element>)
    ensures NonEmptyHrefs(a + b) == NonEmptyHrefs(a) + NonEmptyHrefs(b)
    decreases |a|
  {
    if |a| == 0 {
      assert a + b == b;
    } else {
      assert (a + b)[0] == a[0];
      assert (a + b)[1..] == a[1..] + b;
      NonEmptyHrefsConcat(a[1..], b);
    }
  }

  /** One element contributes its href exactly when it has one. */
  lemma NonEmptyHrefsOne(e: Element)
    ensures NonEmptyHrefs([e]) == if e.href != "" then [e.href] else []
  {
    assert [e][1..] == [];
  }

  /** `allLinks`: the hrefs under every card selector, selector by selector. */
  function CardHrefs(p: Page, sels: seq<Selector>): seq<string>
    decreases |sels|
  {
    if |sels| == 0 then [] else NonEmptyHrefs(QueryAll(p, sels[0])) + CardHrefs(p, sels[1..])
  }

  /** `newLinks`: the valid listing URLs visible in one observation, possibly
      already known ones. */
  function NewLinks(o: Observation): seq<string> {
    KeepValid(CardHrefs(o.page, CardLinkSelectors))
  }

  /** The valid links of each observation, in observation order. */
  function LinksPerObservation(obs: seq<Observation>): (r: seq<seq<string>>)
    ensures |r| == |obs|
    ensures forall i :: 0 <= i < |obs| ==> r[i] == NewLinks(obs[i])
  {
    seq(|obs|, i requires 0 <= i < |obs| => NewLinks(obs[i]))
  }

  /** Every valid link the observations show, de-duplicated in order of
      first sight. */
  function DiscoveryOrder(obs: seq<Observation>): seq<string> {
    Dedup(Flatten(LinksPerObservation(obs)))
  }

  /** `listingLinks`, `attempts` and `noNewContentCount`. */
  datatype HarvestState = HarvestState(links: seq<string>, attempts: nat, idle: nat)

  /** The `while` condition. */
  predicate Continues(s: HarvestState) {
    |s.links| < LinkTarget && s.attempts < MaxAttempts && s.idle < IdleLimit
  }

  /** One pass of the loop body: the idle counter rises on a timed-out wait
      and again when the page shows no valid link, and drops to 0 as soon as
      it shows any; the merge keeps the known links as a prefix and appends
      the unseen ones. */
  function Step(s: HarvestState, o: Observation): (t: HarvestState)
    requires NoDup(s.links)
    ensures t.attempts == s.attempts + 1
    ensures NewLinks(o) != [] ==> t.idle == 0
    ensures NewLinks(o) == [] ==> t.idle == s.idle + (if o.timedOut then 2 else 1)
    ensures t.links == AppendNew(s.links, NewLinks(o))
    ensures s.links <= t.links && NoDup(t.links)
    ensures forall k :: |s.links| <= k < |t.links| ==> t.links[k] in NewLinks(o) && t.links[k] !in s.links
  {
    var idle := if o.timedOut then s.idle + 1 else s.idle;
    var found := NewLinks(o);
    var merged := Dedup(s.links + found);
    DedupMerge(s.links, found);
    HarvestState(merged, s.attempts + 1, if |found| == 0 then idle + 1 else 0)
  }

  /** The first `n` observations' links, flattened. */
  lemma {:induction false} LinksPerObservationSplit(obs: seq<Observation>, n: nat)
    requires 0 < n <= |obs|
    ensures Flatten(LinksPerObservation(obs[..n]))
            == NewLinks(obs[0]) + Flatten(LinksPerObservation(obs[1..][..n - 1]))
  {
    var ls := LinksPerObservation(obs[..n]);
    assert ls[1..] == LinksPerObservation(obs[1..][..n - 1]);
  }

  /** The whole `while` loop, one observation per pass. It stops only when
      its own condition fails, after at most `MaxAttempts` passes, and the
      links it holds are then exactly the de-duplicated discovery order of
      the observations it consumed. */
  function Loop(s: HarvestState, obs: seq<Observation>): (t: HarvestState)
    requires s.attempts <= MaxAttempts
    requires |obs| >= MaxAttempts - s.attempts
    requires NoDup(s.links)
    ensures s.attempts <= t.attempts <= MaxAttempts
    ensures !Continues(t)
    ensures !Continues(s) ==> t == s
    ensures s.links <= t.links && NoDup(t.links)
    ensures t.links == AppendNew(s.links, Flatten(LinksPerObservation(obs[..t.attempts - s.attempts])))
    decreases MaxAttempts - s.attempts
  {
    if !Continues(s) then
      assert obs[..0] == [];
      s
    else
      var next := Step(s, obs[0]);
      var t := Loop(next, obs[1..]);
      var n := t.attempts - s.attempts;
      LinksPerObservationSplit(obs, n);
      AppendNewConcat(s.links, NewLinks(obs[0]), Flatten(LinksPerObservation(obs[1..][..n - 1])));
      t
  }

  /** What the first `m` passes add to the idle counter when none of them
      shows a valid link: two for a pass whose wait timed out, one for any
      other. */
  function IdleGain(obs: seq<Observation>, m: nat): (g: nat)
    requires m <= |obs|
    ensures m <= g <= 2 * m
    decreases m
  {
    if m == 0 then 0 else (if obs[0].timedOut then 2 else 1) + IdleGain(obs[1..], m - 1)
  }

  /** A pass that keeps the loop going hands it on to the next pass. */
  lemma LoopContinues(s: HarvestState, obs: seq<Observation>)
    requires Continues(s)
    requires |obs| >= MaxAttempts - s.attempts
    requires NoDup(s.links)
    ensures Loop(s, obs) == Loop(Step(s, obs[0]), obs[1..])
  {
  }

  /** Passes that show no valid link end the loop as soon as the idle
      counter they build up reaches the limit, from any state and whatever
      the size and attempt bounds say. */
  lemma {:induction false} IdleObservationsStop(s: HarvestState, obs: seq<Observation>, m: nat)
    requires s.attempts <= MaxAttempts
    requires |obs| >= MaxAttempts - s.attempts
    requires NoDup(s.links)
    requires m <= |obs| && IdleLimit <= s.idle + IdleGain(obs, m)
    requires forall i :: 0 <= i < m ==> NewLinks(obs[i]) == []
    ensures Loop(s, obs).attempts <= s.attempts + m
    decreases m
  {
    if Continues(s) {
      var next := Step(s, obs[0]);
      assert NewLinks(obs[0]) == [];
      assert IdleGain(obs, m) == (if obs[0].timedOut then 2 else 1) + IdleGain(obs[1..], m - 1);
      LoopContinues(s, obs);
      forall i | 0 <= i < m - 1 ensures NewLinks(obs[1..][i]) == [] {
        assert obs[1..][i] == obs[i + 1];
      }
      IdleObservationsStop(next, obs[1..], m - 1);
    }
  }

  /** A link-less pass whose wait also timed out counts twice: with one more
      link-less pass it ends the harvest. */
  lemma TimedOutIdlePassesEndHarvest(s: HarvestState, obs: seq<Observation>)
    requires s.attempts <= MaxAttempts
    requires |obs| >= MaxAttempts - s.attempts
    requires NoDup(s.links)
    requires |obs| >= 2
    requires obs[0].timedOut && NewLinks(obs[0]) == [] && NewLinks(obs[1]) == []
    ensures Loop(s, obs).attempts <= s.attempts + 2
  {
    assert IdleGain(obs, 2) >= 3;
    IdleObservationsStop(s, obs, 2);
  }

  /** Three consecutive passes whose page shows no valid link end the
      harvest, even below the size target and the attempt bound. */
  lemma ThreeIdlePassesEndHarvest(s: HarvestState, obs: seq<Observation>)
    requires s.attempts <= MaxAttempts
    requires |obs| >= MaxAttempts - s.attempts
    requires NoDup(s.links)
    requires |obs| >= IdleLimit
    requires forall i :: 0 <= i < IdleLimit ==> NewLinks(obs[i]) == []
    ensures Loop(s, obs).attempts <= s.attempts + IdleLimit
  {
    IdleObservationsStop(s, obs, IdleLimit);
  }

  /** The state after the first `n` passes, pass by pass, whatever the
      `while` condition says. */
  function Passes(s: HarvestState, obs: seq<Observation>, n: nat): (t: HarvestState)
    requires NoDup(s.links)
    requires n <= |obs|
    ensures NoDup(t.links)
    ensures t.attempts == s.attempts + n
    decreases n
  {
    if n == 0 then s else Passes(Step(s, obs[0]), obs[1..], n - 1)
  }

  /** The loop makes exactly the passes a `while` makes: its condition held
      before each pass, and the loop returns the state after the last one,
      where the condition fails. */
  lemma {:induction false} LoopStopsAtFirstFailedCondition(s: HarvestState, obs: seq<Observation>)
    requires s.attempts <= MaxAttempts
    requires |obs| >= MaxAttempts - s.attempts
    requires NoDup(s.links)
    ensures var n := Loop(s, obs).attempts - s.attempts;
            && n <= |obs|
            && Loop(s, obs) == Passes(s, obs, n)
            && forall k :: 0 <= k < n ==> Continues(Passes(s, obs, k))
    decreases MaxAttempts - s.attempts
  {
    if Continues(s) {
      var next := Step(s, obs[0]);
      LoopStopsAtFirstFailedCondition(next, obs[1..]);
      LoopContinues(s, obs);
      var n := Loop(s, obs).attempts - s.attempts;
      PassesShift(s, obs, n);
      forall k | 0 < k < n ensures Continues(Passes(s, obs, k)) {
        PassesShift(s, obs, k);
      }
    }
  }

  /** Making `k` passes is making the first and then `k - 1` more. */
  lemma PassesShift(s: HarvestState, obs: seq<Observation>, k: nat)
    requires NoDup(s.links)
    requires 0 < k <= |obs|
    ensures Passes(s, obs, k) == Passes(Step(s, obs[0]), obs[1..], k - 1)
  {
  }

  /** A prefix of the observations discovers a prefix of the discovery order. */
  lemma DiscoveryPrefix(obs: seq<Observation>, n: nat)
    requires n <= |obs|
    ensures Dedup(Flatten(LinksPerObservation(obs[..n]))) <= DiscoveryOrder(obs)
  {
    assert LinksPerObservation(obs[..n]) == LinksPerObservation(obs)[..n];
    DedupFlattenPrefix(LinksPerObservation(obs), n);
  }

  /** Only valid listing URLs are ever discovered. */
  lemma DiscoveryOrderValid(obs: seq<Observation>)
    ensures forall k :: 0 <= k < |DiscoveryOrder(obs)| ==> ValidListingUrl(DiscoveryOrder(obs)[k])
  {
    AllValidFlatten(LinksPerObservation(obs));
  }

  /** What the loop holds when it stops, started from nothing: a prefix of
      the discovery order. */
  lemma HarvestIsDiscoveryPrefix(obs: seq<Observation>)
    requires |obs| >= MaxAttempts
    ensures Loop(HarvestState([], 0, 0), obs).links <= DiscoveryOrder(obs)
  {
    FreshLoopIsDiscoveryPrefix(HarvestState([], 0, 0), obs);
  }

  /** The same for any fresh state. */
  lemma FreshLoopIsDiscoveryPrefix(s: HarvestState, obs: seq<Observation>)
    requires s.links == [] && s.attempts == 0
    requires |obs| >= MaxAttempts
    ensures Loop(s, obs).links <= DiscoveryOrder(obs)
  {
    var t := Loop(s, obs);
    DiscoveryPrefix(obs, t.attempts);
  }

  /** `gatherListingLinks()`, given an observation for every pass the loop
      may make: the first 20 links the loop collected. */
  function GatherListingLinks(obs: seq<Observation>): (r: seq<string>)
    requires |obs| >= MaxAttempts
    ensures |r| <= LinkCap
  {
    Take(Loop(HarvestState([], 0, 0), obs).links, LinkCap)
  }

  /** The harvest result: at most 20 distinct valid listing URLs, a prefix
      of the order in which the observations revealed them. */
  lemma GatheredLinksAreDiscovered(obs: seq<Observation>)
    requires |obs| >= MaxAttempts
    ensures |GatherListingLinks(obs)| <= LinkCap
    ensures NoDup(GatherListingLinks(obs))
    ensures forall k :: 0 <= k < |GatherListingLinks(obs)| ==> ValidListingUrl(GatherListingLinks(obs)[k])
    ensures GatherListingLinks(obs) <= DiscoveryOrder(obs)
  {
    HarvestIsDiscoveryPrefix(obs);
    DiscoveryOrderValid(obs);
    NoDupPrefix(GatherListingLinks(obs), DiscoveryOrder(obs));
  }

  // ---------------------------------------------------------------------
  // Batch scraping (`scrapeListingDetails`, `scrapeMultipleListings`)
  // ---------------------------------------------------------------------

  /** `batchSize` at the call in `scrapeGrailedListing` */
  const BatchSize: nat := 3

  /** One related listing on its own page: the extracted details with the
      link attached, or, when navigation or the readiness wait threw,
      `{ link, error: e.message }`. */
  function ScrapeListingDetails(visit: string -> Visit, link: string): (r: Record)
    ensures r.link == link
    ensures r.Failed? <==> visit(link).Broken?
    ensures r.Failed? ==> r.error == visit(link).message
    ensures r.Scraped? ==> r.details == ListingDetails(visit(link).page)
  {
    match visit(link)
    case Loaded(page) => Scraped(link, ListingDetails(page))
    case Broken(message) => Failed(link, message)
  }

  /** `scrapeMultipleListings(browser, links, batchSize)`: the batches of
      `Promise.all(batch.map(...))` in turn, which never reject here. The
      result has one record per input link, in input order, each carrying
      its own link, and failures are confined to their own record. */
  function ScrapeMultipleListings(visit: string -> Visit, links: seq<string>, batchSize: nat): (r: seq<Record>)
    requires batchSize > 0
    ensures |r| == |links|
    ensures forall i :: 0 <= i < |links| ==> r[i].link == links[i]
    ensures forall i :: 0 <= i < |links| ==> (r[i].Failed? <==> visit(links[i]).Broken?)
    ensures forall i :: 0 <= i < |links| && r[i].Scraped? ==> r[i].details == ListingDetails(visit(links[i]).page)
  {
    MapBatches(link => ScrapeListingDetails(visit, link), Chunks(links, batchSize))
  }

  // ---------------------------------------------------------------------
  // Category navigation and the end-to-end run (`scrapeGrailedListing`)
  // ---------------------------------------------------------------------

  const BreadcrumbSelectors: seq<Selector> :=
    ["nav.Breadcrumbs_breadcrumbs__9ol0k ol", ".breadcrumbs ol", "[data-cy='breadcrumbs'] ol", "ol.breadcrumb"]
  const SimilarSelectors: seq<Selector> :=
    ["a:contains('Similar')", "a:contains('Related')", "a[href*='/similar']", "[data-cy='similar-items'] a"]

  const NavigationError: string := "Could not find a way to navigate to similar items"
  const ErrorScreenshot: string := "error-screenshot.png"
  const NoListingsScreenshot: string := "debug-no-listings.png"

  /** Leaving the listing page: a breadcrumb category when there is one,
      otherwise a "similar items" anchor, otherwise nowhere. Either target is
      a category link, never another listing. */
  function NavigateToCategory(p: Page): (r: Route)
    ensures r.ViaBreadcrumb? <==> !NoUsableBreadcrumb(p, BreadcrumbSelectors)
    ensures r.ViaSimilar? <==> NoUsableBreadcrumb(p, BreadcrumbSelectors) && !NoCategoryLink(p, SimilarSelectors)
    ensures r.NoRoute? <==> NoUsableBreadcrumb(p, BreadcrumbSelectors) && NoCategoryLink(p, SimilarSelectors)
    ensures !r.NoRoute? ==> CategoryHref(r.target)
    ensures r.ViaBreadcrumb? ==> BreadcrumbTarget(p, BreadcrumbSelectors, r.target)
    ensures r.ViaSimilar? ==> SimilarTarget(p, SimilarSelectors, r.target)
  {
    match BreadcrumbChoice(p, BreadcrumbSelectors)
    case Some(a) => ViaBreadcrumb(a.href)
    case None =>
      match SimilarChoice(p, SimilarSelectors)
      case Some(e) => ViaSimilar(e.href)
      case None => NoRoute
  }

  /** `scrapeGrailedListing(listingUrl)`. The browser's behaviour enters as
      inputs: `original` is the listing page after `goto` and
      `ensurePageLoaded`, `category` the page reached by the click after its
      `ensurePageLoaded`, `obs` what each harvesting pass sees, and `visit`
      what opening each related listing yields. */
  function ScrapeGrailedListing(
    listingUrl: string,
    original: Visit,
    category: Visit,
    obs: seq<Observation>,
    visit: string -> Visit): (run: Run)
    requires |obs| >= MaxAttempts
    ensures ClosesOnce(run.effects)
    ensures run.result.Failure? <==> run.effects[0] == Screenshot(ErrorScreenshot)
    ensures run.result.Failure? ==> run.filter.None?
  {
    match original
    case Broken(message) => FailedRun(message)
    case Loaded(listingPage) =>
      if NavigateToCategory(listingPage).NoRoute? then FailedRun(NavigationError)
      else
        match category
        case Broken(message) => FailedRun(message)
        case Loaded(browsePage) => CategoryRun(Scraped(listingUrl, ListingDetails(listingPage)), browsePage, obs, visit)
  }

  /** The browser is closed exactly once, as the last effect. */
  predicate ClosesOnce(effects: seq<Effect>) {
    && |effects| > 0
    && effects[|effects| - 1] == CloseBrowser
    && forall i :: 0 <= i < |effects| - 1 ==> effects[i] != CloseBrowser
  }

  /** The `catch` block: an error screenshot, closing the browser, and the
      rejection with the caught error. */
  function FailedRun(message: string): (run: Run)
    ensures run.result == Failure(message) && run.filter.None?
    ensures ClosesOnce(run.effects) && run.effects[0] == Screenshot(ErrorScreenshot)
  {
    Run(Failure(message), None, [Screenshot(ErrorScreenshot), CloseBrowser])
  }

  /** The part of `scrapeGrailedListing` after the category page loaded:
      the filter when the listing showed a condition, the harvest, the batch
      scrape, and a resolved run that closes the browser. */
  function CategoryRun(originalRecord: Record, browsePage: Page, obs: seq<Observation>, visit: string -> Visit): (run: Run)
    requires originalRecord.Scraped?
    requires |obs| >= MaxAttempts
    ensures run.result.Success? && run.result.value.originalListingDetails == originalRecord
    ensures run.filter.Some? <==> originalRecord.details.cond != ""
    ensures ClosesOnce(run.effects) && run.effects[0] != Screenshot(ErrorScreenshot)
    ensures Screenshot(ErrorScreenshot) !in run.effects
  {
    var cond := originalRecord.details.cond;
    var filter := if cond != "" then Some(ApplyFilter(browsePage, ConditionFilterType, cond)) else None;
    var links := GatherListingLinks(obs);
    var related := ScrapeMultipleListings(visit, links, BatchSize);
    Run(Success(ScrapeResult(originalRecord, related)), filter, SuccessEffects(|links| == 0))
  }

  /** The effects of a resolved run: the debugging screenshot when no link
      was gathered, then closing the browser. */
  function SuccessEffects(noLinks: bool): (e: seq<Effect>)
    ensures ClosesOnce(e) && e[0] != Screenshot(ErrorScreenshot)
    ensures forall i :: 0 <= i < |e| - 1 ==> e[i] == Screenshot(NoListingsScreenshot)
    ensures e[0] == Screenshot(NoListingsScreenshot) <==> noLinks
    ensures Screenshot(ErrorScreenshot) !in e
  {
    if noLinks then [Screenshot(NoListingsScreenshot), CloseBrowser] else [CloseBrowser]
  }

  /** Neither a breadcrumb nor a "similar items" link: the run rejects with
      the navigation error, without touching the filter. */
  lemma NoRouteRejects(listingUrl: string, original: Visit, category: Visit, obs: seq<Observation>, visit: string -> Visit)
    requires |obs| >= MaxAttempts
    requires original.Loaded? && NavigateToCategory(original.page).NoRoute?
    ensures ScrapeGrailedListing(listingUrl, original, category, obs, visit).result == Failure(NavigationError)
    ensures ScrapeGrailedListing(listingUrl, original, category, obs, visit).filter.None?
  {
  }

  /** The condition filter runs exactly when both pages loaded, a route to
      the category existed and the listing showed a condition, and then with
      that condition. */
  lemma FilterOnlyForListedCondition(listingUrl: string, original: Visit, category: Visit, obs: seq<Observation>, visit: string -> Visit)
    requires |obs| >= MaxAttempts
    ensures var run := ScrapeGrailedListing(listingUrl, original, category, obs, visit);
            run.filter.Some? <==> && original.Loaded?
                                  && !NavigateToCategory(original.page).NoRoute?
                                  && category.Loaded?
                                  && ListingDetails(original.page).cond != ""
    ensures var run := ScrapeGrailedListing(listingUrl, original, category, obs, visit);
            run.filter.Some? ==>
              run.filter.value == ApplyFilter(category.page, ConditionFilterType, ListingDetails(original.page).cond)
  {
  }

  /** A resolved run carries the original listing with its URL attached and
      one record per gathered link, in order; a debugging screenshot is taken
      exactly when no link was gathered. */
  lemma SuccessAssemblesResult(listingUrl: string, original: Visit, category: Visit, obs: seq<Observation>, visit: string -> Visit)
    requires |obs| >= MaxAttempts
    ensures var run := ScrapeGrailedListing(listingUrl, original, category, obs, visit);
            run.result.Success? <==> original.Loaded? && !NavigateToCategory(original.page).NoRoute? && category.Loaded?
    ensures var run := ScrapeGrailedListing(listingUrl, original, category, obs, visit);
            run.result.Success? ==>
              && run.result.value.originalListingDetails == Scraped(listingUrl, ListingDetails(original.page))
              && run.result.value.relatedListings == ScrapeMultipleListings(visit, GatherListingLinks(obs), BatchSize)
              && (run.effects[0] == Screenshot(NoListingsScreenshot) <==> GatherListingLinks(obs) == [])
  {
  }
}

=== FILE: conditions.dfy ===
/** The marketplace's five-entry condition taxonomy, shared by both
    `applyFilter` versions: the `"new"` alias, the 1-based position a
    condition name has in the filter list, and the outcomes a condition-filter
    attempt can have. */
module Conditions {
  import opened Wrappers
  import opened Strings
  import opened Dom

  /** `conditionNames`, in the order of the filter list on the browse page. */
  const ConditionNames: seq<string> :=
    ["new/ never worn", "gently used", "used", "very worn", "not specified"]

  /** The listing-page wording that the filter list spells differently. */
  const NewAlias: string := "new"

  /** The first condition name is already lower case. */
  lemma FirstNameIsLower()
    ensures ToLower(ConditionNames[0]) == ConditionNames[0]
  {
    assert forall i :: 0 <= i < |ConditionNames[0]| ==> !IsUpper(ConditionNames[0][i]);
    ToLowerOfLower(ConditionNames[0]);
  }

  /** `if (value.toLowerCase() === "new") value = "new/ never worn";`: the
      alias never survives, a value the filter list knows (or the alias)
      stays known, and nothing else changes. */
  function Normalize(value: string): (r: string)
    ensures ToLower(value) == NewAlias ==> r == ConditionNames[0]
    ensures ToLower(value) != NewAlias ==> r == value
    ensures ToLower(r) != NewAlias
    ensures ToLower(r) in ConditionNames <==> ToLower(value) == NewAlias || ToLower(value) in ConditionNames
  {
    FirstNameIsLower();
    if ToLower(value) == NewAlias then ConditionNames[0] else value
  }

  /** Normalising twice is normalising once. */
  lemma NormalizeIdempotent(value: string)
    ensures Normalize(Normalize(value)) == Normalize(value)
  {
  }

  /** The key both versions look up: `value.toLowerCase()` after
      normalisation. */
  function LookupKey(value: string): string {
    ToLower(Normalize(value))
  }

  /** 1-based position of `key` in `names`, like the `idx + 1` stored in
      `conditionMap`. */
  function IndexIn(names: seq<string>, key: string): (r: Option<nat>)
    ensures r.None? <==> key !in names
    ensures r.Some? ==> 1 <= r.value <= |names| && names[r.value - 1] == key
    ensures r.Some? ==> forall j :: 0 <= j < r.value - 1 ==> names[j] != key
    decreases |names|
  {
    if |names| == 0 then None
    else if names[0] == key then Some(1)
    else match IndexIn(names[1..], key)
      case None => None
      case Some(i) => Some(i + 1)
  }

  /** `conditionMap[key]` resolved to the index it was built from. */
  function ConditionIndex(key: string): Option<nat> {
    IndexIn(ConditionNames, key)
  }

  /** Each condition name sits at its own 1-based position: the names are
      distinct. */
  lemma ConditionNamesIndexed()
    ensures forall k :: 0 <= k < |ConditionNames| ==> ConditionIndex(ConditionNames[k]) == Some(k + 1)
  {
    var n := ConditionNames;
    assert n[0][1] == 'e' && n[4][1] == 'o';
    assert n[0][0] == 'n' && n[1][0] == 'g' && n[2][0] == 'u' && n[3][0] == 'v' && n[4][0] == 'n';
    assert forall i, j :: 0 <= i < j < |n| ==> n[i] != n[j];
    forall k | 0 <= k < |n| ensures ConditionIndex(n[k]) == Some(k + 1) {
      assert n[k] in n;
    }
  }

  /** The condition lookup of both `applyFilter` versions: `"new"` in any
      case finds the first entry, a name of the taxonomy in any case finds
      its own 1-based position, and nothing else is found. */
  lemma LookupKeyIndex(value: string)
    ensures ToLower(value) == NewAlias ==> ConditionIndex(LookupKey(value)) == Some(1)
    ensures forall k :: 0 <= k < |ConditionNames| && ToLower(value) == ConditionNames[k] ==>
              ConditionIndex(LookupKey(value)) == Some(k + 1)
    ensures ConditionIndex(LookupKey(value)).Some? <==>
              ToLower(value) == NewAlias || ToLower(value) in ConditionNames
  {
    FirstNameIsLower();
    ToLowerIdempotent(value);
    if ToLower(value) == NewAlias {
      assert LookupKey(value) == ConditionNames[0];
    } else {
      assert LookupKey(value) == ToLower(value);
      ConditionNamesIndexed();
    }
  }

  /** The filter type both scrapers pass for the condition filter. */
  const ConditionFilterType: string := "condition"

  lemma ConditionFilterTypeIsLower()
    ensures ToLower(ConditionFilterType) == ConditionFilterType
  {
    assert forall i :: 0 <= i < |ConditionFilterType| ==> !IsUpper(ConditionFilterType[i]);
    ToLowerOfLower(ConditionFilterType);
  }

  const IndexHole: string := "{index}"

  /** The early scraper's `baseSelector`, also the first template of the
      hardened one: the checkbox of the `{index}`-th entry of the condition
      list. */
  const IndexedTemplate: Selector :=
    "#feed > div > div.feed-and-filters > div.left > div > div:nth-child(7) > div.Collapsible_collapsibleContent__CZrnt > div > div > ul > li:nth-child({index}) > div > input"

  /** `baseSelector.replace('{index}', idx + 1)` for a one-digit position. */
  function IndexSelector(template: Selector, index: nat): Selector
    requires index <= 9
  {
    ReplaceFirst(template, IndexHole, DigitString(index))
  }

  /** What one `applyFilter` call did. */
  datatype FilterOutcome =
    | Skipped                                    // empty value: returned before touching the page
    | PanelMissing                               // no filter panel appeared in time (an early return, or a caught `waitForSelector` timeout)
    | OtherFilter                                // the filter type is not "condition"
    | Applied(selector: Selector, clicked: bool) // reported success; `clicked` is false when the box was already ticked
    | NotApplied                                 // reported failure: "Could not find condition filter option"
    | Aborted                                    // an exception inside the step, caught and logged
  {
    /** The attempt reported success (`conditionFound` was truthy). */
    predicate Succeeded() {
      Applied?
    }
  }
}

=== FILE: dom.dfy ===
/** An immutable snapshot of a rendered page. Every `querySelector`,
    `querySelectorAll` and `$$eval` the scrapers run inside the page becomes a
    lookup in this snapshot; selector syntax is not interpreted, so a selector
    is only a key. */
module Dom {
  import opened Wrappers

  type Selector = string

  /** An `li a` anchor inside a breadcrumb list. */
  datatype Anchor = Anchor(text: string, href: string)

  /** One matched element: its `textContent` already trimmed, its `href` (empty
      when it has none), `childElementCount`, the `checked` flag of a checkbox,
      and the `li a` anchors below it. */
  datatype Element = Element(
    text: string,
    href: string,
    childCount: nat,
    checked: bool,
    anchors: seq<Anchor>)

  /** Selector -> every matching element, in document order. */
  type Page = map<Selector, seq<Element>>

  /** `document.querySelectorAll(sel)` */
  function QueryAll(p: Page, sel: Selector): seq<Element> {
    if sel in p then p[sel] else []
  }

  /** `document.querySelector(sel) !== null` */
  predicate Present(p: Page, sel: Selector) {
    |QueryAll(p, sel)| > 0
  }

  /** `document.querySelector(sel)`: the first match, if any. */
  function Query(p: Page, sel: Selector): (r: Option<Element>)
    ensures r.Some? <==> Present(p, sel)
    ensures r.Some? ==> r.value == QueryAll(p, sel)[0]
  {
    if Present(p, sel) then Some(QueryAll(p, sel)[0]) else None
  }

  /** `getTextContent(sel)`: the trimmed text of the first match, `""` when
      nothing matches. */
  function TextOf(p: Page, sel: Selector): (r: string)
    ensures !Present(p, sel) ==> r == ""
  {
    match Query(p, sel)
    case None => ""
    case Some(e) => e.text
  }

  /** What one pass of a link-harvesting loop sees: whether both waits for new
      content timed out, the document height before scrolling and after the
      wait, and the page as it then stands. */
  datatype Observation = Observation(
    timedOut: bool,
    heightBefore: nat,
    heightAfter: nat,
    page: Page)
}

=== FILE: extraction.dfy ===
/** The record `getListingDetails` builds, in terms of the selector chains it
    reads. Both scrapers extract the same fields the same way; they differ in
    their chains (fallback lists in backend/browserless-mode.js, one selector
    each in backend/scraper.js) and in the colour field, which only the early
    scraper reads. */
module Extraction {
  import opened Wrappers
  import opened Dom
  import opened Resolver
  import opened Records

  /** One selector chain per field of the record. */
  datatype Chains = Chains(
    price: seq<Selector>,
    discountedPrice: seq<Selector>,
    condition: seq<Selector>,
    description: seq<Selector>,
    likesCount: seq<Selector>,
    authenticBadge: seq<Selector>,
    originalPostingDate: seq<Selector>,
    labels: seq<Selector>,
    thumbnails: seq<Selector>)

  /** The record read through the chains `c`: the discounted price wins over
      the regular one, texts come from the first selector with non-empty
      text, the badge from any selector that matches, labels from the first
      selector that yields any, the image count from the first container
      found. Nothing fails: a missing field takes its empty value. */
  function Extract(p: Page, c: Chains): (d: Details)
    ensures !AllBlank(p, c.discountedPrice) ==>
              exists i :: FirstNonBlankAt(p, c.discountedPrice, i) && d.price == TextOf(p, c.discountedPrice[i])
    ensures AllBlank(p, c.discountedPrice) && !AllBlank(p, c.price) ==>
              exists i :: FirstNonBlankAt(p, c.price, i) && d.price == TextOf(p, c.price[i])
    ensures d.price == "" <==> AllBlank(p, c.discountedPrice) && AllBlank(p, c.price)
    ensures ReadsFirstText(p, c.condition, d.cond)
    ensures ReadsFirstText(p, c.description, d.description)
    ensures ReadsFirstText(p, c.likesCount, d.likesCount)
    ensures ReadsFirstText(p, c.originalPostingDate, d.originalPostingDate)
    ensures d.isAuthentic <==> exists i :: 0 <= i < |c.authenticBadge| && Present(p, c.authenticBadge[i])
    ensures forall k :: 0 <= k < |d.labels| ==> d.labels[k] != ""
    ensures d.labels != [] ==> exists i :: && 0 <= i < |c.labels|
                                           && d.labels == LabelsOf(p, c.labels[i])
                                           && forall j :: 0 <= j < i ==> LabelsOf(p, c.labels[j]) == []
    ensures d.labels == [] <==> forall i :: 0 <= i < |c.labels| ==> LabelsOf(p, c.labels[i]) == []
    ensures AllAbsent(p, c.thumbnails) ==> d.imageCount == 0
    ensures !AllAbsent(p, c.thumbnails) ==>
              exists i :: FirstPresentAt(p, c.thumbnails, i) && d.imageCount == QueryAll(p, c.thumbnails[i])[0].childCount
    ensures d.colour.None?
  {
    var discounted := FirstText(p, c.discountedPrice);
    Details(
      price := if discounted != "" then discounted else FirstText(p, c.price),
      labels := FirstLabels(p, c.labels),
      cond := FirstText(p, c.condition),
      imageCount := FirstChildCount(p, c.thumbnails),
      description := FirstText(p, c.description),
      likesCount := FirstText(p, c.likesCount),
      isAuthentic := AnyPresent(p, c.authenticBadge),
      originalPostingDate := FirstText(p, c.originalPostingDate),
      colour := None)
  }

  /** Pages `p1` and `p2` each expose the field of `chain` under exactly one
      of its selectors, possibly different ones, with identical elements. */
  ghost predicate SameFieldContent(p1: Page, p2: Page, chain: seq<Selector>) {
    exists k1, k2 :: && OnlySource(p1, chain, k1)
                     && OnlySource(p2, chain, k2)
                     && QueryAll(p1, chain[k1]) == QueryAll(p2, chain[k2])
  }

  /** Every reading of such a field gives the same value on both pages. */
  lemma SameFieldContentResolves(p1: Page, p2: Page, chain: seq<Selector>)
    requires SameFieldContent(p1, p2, chain)
    ensures FirstText(p1, chain) == FirstText(p2, chain)
    ensures AnyPresent(p1, chain) == AnyPresent(p2, chain)
    ensures FirstLabels(p1, chain) == FirstLabels(p2, chain)
    ensures FirstChildCount(p1, chain) == FirstChildCount(p2, chain)
  {
    var k1, k2 :| && OnlySource(p1, chain, k1)
                  && OnlySource(p2, chain, k2)
                  && QueryAll(p1, chain[k1]) == QueryAll(p2, chain[k2]);
    OnlySourceDecides(p1, chain, k1);
    OnlySourceDecides(p2, chain, k2);
  }

  /** Every field is exposed alike by the two pages. */
  ghost predicate SameContent(p1: Page, p2: Page, c: Chains) {
    && SameFieldContent(p1, p2, c.price)
    && SameFieldContent(p1, p2, c.discountedPrice)
    && SameFieldContent(p1, p2, c.condition)
    && SameFieldContent(p1, p2, c.description)
    && SameFieldContent(p1, p2, c.likesCount)
    && SameFieldContent(p1, p2, c.authenticBadge)
    && SameFieldContent(p1, p2, c.originalPostingDate)
    && SameFieldContent(p1, p2, c.labels)
    && SameFieldContent(p1, p2, c.thumbnails)
  }

  /** A page that answers only fallback selectors yields the same record as
      a page that answers only the newest, versioned selectors with the same
      content: the chains shield extraction from markup churn. */
  lemma FallbackMarkupExtractsAlike(p1: Page, p2: Page, c: Chains)
    requires SameContent(p1, p2, c)
    ensures Extract(p1, c) == Extract(p2, c)
  {
    assert FirstText(p1, c.price) == FirstText(p2, c.price) by {
      SameFieldContentResolves(p1, p2, c.price);
    }
    assert FirstText(p1, c.discountedPrice) == FirstText(p2, c.discountedPrice) by {
      SameFieldContentResolves(p1, p2, c.discountedPrice);
    }
    assert FirstText(p1, c.condition) == FirstText(p2, c.condition) by {
      SameFieldContentResolves(p1, p2, c.condition);
    }
    assert FirstText(p1, c.description) == FirstText(p2, c.description) by {
      SameFieldContentResolves(p1, p2, c.description);
    }
    assert FirstText(p1, c.likesCount) == FirstText(p2, c.likesCount) by {
      SameFieldContentResolves(p1, p2, c.likesCount);
    }
    assert AnyPresent(p1, c.authenticBadge) == AnyPresent(p2, c.authenticBadge) by {
      SameFieldContentResolves(p1, p2, c.authenticBadge);
    }
    assert FirstText(p1, c.originalPostingDate) == FirstText(p2, c.originalPostingDate) by {
      SameFieldContentResolves(p1, p2, c.originalPostingDate);
    }
    assert FirstLabels(p1, c.labels) == FirstLabels(p2, c.labels) by {
      SameFieldContentResolves(p1, p2, c.labels);
    }
    assert FirstChildCount(p1, c.thumbnails) == FirstChildCount(p2, c.thumbnails) by {
      SameFieldContentResolves(p1, p2, c.thumbnails);
    }
    ReadingsDecide(p1, p2, c);
  }

  /** The record depends on the page only through the chain readings. */
  lemma ReadingsDecide(p1: Page, p2: Page, c: Chains)
    requires FirstText(p1, c.price) == FirstText(p2, c.price)
    requires FirstText(p1, c.discountedPrice) == FirstText(p2, c.discountedPrice)
    requires FirstText(p1, c.condition) == FirstText(p2, c.condition)
    requires FirstText(p1, c.description) == FirstText(p2, c.description)
    requires FirstText(p1, c.likesCount) == FirstText(p2, c.likesCount)
    requires AnyPresent(p1, c.authenticBadge) == AnyPresent(p2, c.authenticBadge)
    requires FirstText(p1, c.originalPostingDate) == FirstText(p2, c.originalPostingDate)
    requires FirstLabels(p1, c.labels) == FirstLabels(p2, c.labels)
    requires FirstChildCount(p1, c.thumbnails) == FirstChildCount(p2, c.thumbnails)
    ensures Extract(p1, c) == Extract(p2, c)
  {
  }

  /** Each chain of `c` has a first selector. */
  predicate HasHeads(c: Chains) {
    && |c.price| > 0 && |c.discountedPrice| > 0 && |c.condition| > 0
    && |c.description| > 0 && |c.likesCount| > 0 && |c.authenticBadge| > 0
    && |c.originalPostingDate| > 0 && |c.labels| > 0 && |c.thumbnails| > 0
  }

  /** The chains cut down to their first selectors. */
  function Heads(c: Chains): (h: Chains)
    requires HasHeads(c)
    ensures h.price == [c.price[0]] && h.labels == [c.labels[0]] && h.thumbnails == [c.thumbnails[0]]
  {
    Chains([c.price[0]], [c.discountedPrice[0]], [c.condition[0]], [c.description[0]], [c.likesCount[0]],
           [c.authenticBadge[0]], [c.originalPostingDate[0]], [c.labels[0]], [c.thumbnails[0]])
  }

  /** Only the first selector of a chain matches anything on `p`. */
  predicate OnlyHead(p: Page, chain: seq<Selector>) {
    |chain| > 0 && OnlySource(p, chain, 0)
  }

  /** On that markup, reading the whole chain is reading its first selector. */
  lemma OnlyHeadResolves(p: Page, chain: seq<Selector>)
    requires OnlyHead(p, chain)
    ensures FirstText(p, chain) == FirstText(p, [chain[0]])
    ensures AnyPresent(p, chain) == AnyPresent(p, [chain[0]])
    ensures FirstLabels(p, chain) == FirstLabels(p, [chain[0]])
    ensures FirstChildCount(p, chain) == FirstChildCount(p, [chain[0]])
  {
    OnlySourceDecides(p, chain, 0);
    OnlySourceDecides(p, [chain[0]], 0);
  }

  /** On markup that answers only the first selector of every chain, the
      fallback chains read exactly what their first selectors alone read. */
  lemma HeadsSuffice(p: Page, c: Chains)
    requires HasHeads(c)
    requires && OnlyHead(p, c.price) && OnlyHead(p, c.discountedPrice) && OnlyHead(p, c.condition)
             && OnlyHead(p, c.description) && OnlyHead(p, c.likesCount) && OnlyHead(p, c.authenticBadge)
             && OnlyHead(p, c.originalPostingDate) && OnlyHead(p, c.labels) && OnlyHead(p, c.thumbnails)
    ensures Extract(p, c) == Extract(p, Heads(c))
  {
    var h := Heads(c);
    assert FirstText(p, c.price) == FirstText(p, h.price) by { OnlyHeadResolves(p, c.price); }
    assert FirstText(p, c.discountedPrice) == FirstText(p, h.discountedPrice) by { OnlyHeadResolves(p, c.discountedPrice); }
    assert FirstText(p, c.condition) == FirstText(p, h.condition) by { OnlyHeadResolves(p, c.condition); }
    assert FirstText(p, c.description) == FirstText(p, h.description) by { OnlyHeadResolves(p, c.description); }
    assert FirstText(p, c.likesCount) == FirstText(p, h.likesCount) by { OnlyHeadResolves(p, c.likesCount); }
    assert AnyPresent(p, c.authenticBadge) == AnyPresent(p, h.authenticBadge) by { OnlyHeadResolves(p, c.authenticBadge); }
    assert FirstText(p, c.originalPostingDate) == FirstText(p, h.originalPostingDate) by {
      OnlyHeadResolves(p, c.originalPostingDate);
    }
    assert FirstLabels(p, c.labels) == FirstLabels(p, h.labels) by { OnlyHeadResolves(p, c.labels); }
    assert FirstChildCount(p, c.thumbnails) == FirstChildCount(p, h.thumbnails) by { OnlyHeadResolves(p, c.thumbnails); }
  }
}

=== FILE: listing_urls.dfy ===
/** The test both link harvesters apply to every discovered `href`:

      href.startsWith("https://www.grailed.com/listings/")
      && !href.includes("/similar")
      && /\/listings\/\d+-/ matches somewhere in href

    and the test the category navigators apply to breadcrumb and
    "similar items" anchors (a non-empty href that is not a listing page). */
module ListingUrls {
  import opened Wrappers
  import opened Strings
  import opened Dom
  import opened Seqs

  const ListingPrefix: string := "https://www.grailed.com/listings/"
  const SimilarMarker: string := "/similar"
  const ListingsPath: string := "/listings/"

  /** The regular expression `/\/listings\/\d+-/` matches `s[i..k + 1]`:
      `/listings/` at `i`, then one or more digits, then `-` at `k`. */
  predicate IdMatch(s: string, i: int, k: int) {
    && OccursAt(s, ListingsPath, i)
    && i + |ListingsPath| < k < |s|
    && s[k] == '-'
    && forall j :: i + |ListingsPath| <= j < k ==> IsDigit(s[j])
  }

  /** Length of the run of digits that starts `t`. */
  function DigitRun(t: string): (n: nat)
    ensures n <= |t|
    ensures forall j :: 0 <= j < n ==> IsDigit(t[j])
    ensures n < |t| ==> !IsDigit(t[n])
    decreases |t|
  {
    if |t| == 0 || !IsDigit(t[0]) then 0 else 1 + DigitRun(t[1..])
  }

  /** The pattern matches at `i`: since `-` is not a digit, the only candidate
      end is the end of the digit run after `/listings/`. */
  function IdAt(s: string, i: nat): (r: bool)
    ensures r <==> exists k :: IdMatch(s, i, k)
  {
    if !OccursAt(s, ListingsPath, i) then false
    else
      var start := i + |ListingsPath|;
      var n := DigitRun(s[start..]);
      var r := 1 <= n && start + n < |s| && s[start + n] == '-';
      assert forall j :: start <= j < start + n ==> IsDigit(s[j]) by {
        forall j | start <= j < start + n ensures IsDigit(s[j]) {
          assert s[start..][j - start] == s[j];
        }
      }
      assert r ==> IdMatch(s, i, start + n);
      assert (exists k :: IdMatch(s, i, k)) ==> r by {
        if k :| IdMatch(s, i, k) {
          if start + n < k {
            assert s[start..][n] == s[start + n];
          }
        }
      }
      r
  }

  /** Some match starts at or after `i`. */
  function IdFrom(s: string, i: nat): (r: bool)
    ensures r <==> exists j, k :: i <= j && IdMatch(s, j, k)
    decreases |s| - i
  {
    if i >= |s| then false
    else IdAt(s, i) || IdFrom(s, i + 1)
  }

  /** `href.match(/\/listings\/\d+-/)` is truthy. */
  predicate MatchesIdPattern(s: string) {
    IdFrom(s, 0)
  }

  /** The filter of both `gatherListingLinks` versions. */
  predicate ValidListingUrl(href: string) {
    && StartsWith(href, ListingPrefix)
    && !Includes(href, SimilarMarker)
    && MatchesIdPattern(href)
  }

  /** `a.href && !a.href.includes('/listings/')`: an anchor that leads to a
      category or search page rather than to another listing. */
  predicate CategoryHref(href: string) {
    href != "" && !Includes(href, ListingsPath)
  }

  /** `hrefs.filter(ValidListingUrl)`: the valid ones, in order. */
  function KeepValid(hrefs: seq<string>): (r: seq<string>)
    ensures |r| <= |hrefs|
    ensures forall k :: 0 <= k < |r| ==> ValidListingUrl(r[k]) && r[k] in hrefs
    ensures forall i :: 0 <= i < |hrefs| && ValidListingUrl(hrefs[i]) ==> hrefs[i] in r
    decreases |hrefs|
  {
    if |hrefs| == 0 then []
    else if ValidListingUrl(hrefs[0]) then [hrefs[0]] + KeepValid(hrefs[1..])
    else KeepValid(hrefs[1..])
  }

  /** Filtering a list in two parts filters each part in turn: the kept
      hrefs keep their order and their multiplicity. */
  lemma {:induction false} KeepValidConcat(a: seq<string>, b: seq<string>)
    ensures KeepValid(a + b) == KeepValid(a) + KeepValid(b)
    decreases |a|
  {
    if |a| == 0 {
      assert a + b == b;
    } else {
      assert (a + b)[0] == a[0];
      assert (a + b)[1..] == a[1..] + b;
      KeepValidConcat(a[1..], b);
    }
  }

  /** One href is kept exactly when it is a valid listing URL. */
  lemma KeepValidOne(href: string)
    ensures KeepValid([href]) == if ValidListingUrl(href) then [href] else []
  {
    assert [href][1..] == [];
  }

  /** The three clauses of the validity test, in terms of positions in the
      URL: the marketplace prefix, no `/similar` anywhere, and `/listings/`
      followed by at least one digit and then `-`. */
  lemma ValidListingUrlMeans(href: string)
    ensures ValidListingUrl(href) <==>
              && StartsWith(href, ListingPrefix)
              && (forall i :: !OccursAt(href, SimilarMarker, i))
              && (exists i, k :: IdMatch(href, i, k))
  {
  }

  /** Lists of valid URLs flatten to a list of valid URLs. */
  lemma {:induction false} AllValidFlatten(ls: seq<seq<string>>)
    requires forall i, k :: 0 <= i < |ls| && 0 <= k < |ls[i]| ==> ValidListingUrl(ls[i][k])
    ensures forall x :: x in Flatten(ls) ==> ValidListingUrl(x)
    decreases |ls|
  {
    if |ls| > 0 {
      assert forall i :: 0 <= i < |ls| - 1 ==> ls[1..][i] == ls[i + 1];
      AllValidFlatten(ls[1..]);
    }
  }
}

=== FILE: navigation.dfy ===
/** Leaving a listing page for its category: the breadcrumb trail and the
    "similar items" anchors both scrapers click. */
module Navigation {
  import opened Wrappers
  import opened Strings
  import opened Dom
  import opened ListingUrls

  /** `anchors.filter(a => a.href && !a.href.includes('/listings/'))`, then
      the last element of the filtered list: the most specific category of a
      breadcrumb trail. */
  function LastCategoryAnchor(anchors: seq<Anchor>): (r: Option<Anchor>)
    ensures r.None? <==> forall m :: 0 <= m < |anchors| ==> !CategoryHref(anchors[m].href)
    ensures r.Some? ==> exists m :: && 0 <= m < |anchors|
                                    && anchors[m] == r.value
                                    && CategoryHref(anchors[m].href)
                                    && forall n :: m < n < |anchors| ==> !CategoryHref(anchors[n].href)
    decreases |anchors|
  {
    if |anchors| == 0 then None
    else
      var last := anchors[|anchors| - 1];
      if CategoryHref(last.href) then
        assert anchors[|anchors| - 1] == last;
        Some(last)
      else
        var r := LastCategoryAnchor(anchors[..|anchors| - 1]);
        assert forall m :: 0 <= m < |anchors| - 1 ==> anchors[..|anchors| - 1][m] == anchors[m];
        r
  }

  /** The first breadcrumb list `sel` finds has an anchor to a category. */
  predicate UsableBreadcrumb(p: Page, sel: Selector) {
    Present(p, sel) && LastCategoryAnchor(QueryAll(p, sel)[0].anchors).Some?
  }

  /** `sels[i]` is the first selector whose breadcrumb list is usable. */
  predicate FirstUsableAt(p: Page, sels: seq<Selector>, i: int) {
    && 0 <= i < |sels|
    && UsableBreadcrumb(p, sels[i])
    && forall j :: 0 <= j < i ==> !UsableBreadcrumb(p, sels[j])
  }

  /** No selector finds a usable breadcrumb list. */
  predicate NoUsableBreadcrumb(p: Page, sels: seq<Selector>) {
    forall i :: 0 <= i < |sels| ==> !UsableBreadcrumb(p, sels[i])
  }

  /** `target` is where the breadcrumb loop goes: the last category anchor
      of the first usable breadcrumb list. */
  ghost predicate BreadcrumbTarget(p: Page, sels: seq<Selector>, target: string) {
    exists i :: FirstUsableAt(p, sels, i) && target == LastCategoryAnchor(QueryAll(p, sels[i])[0].anchors).value.href
  }

  /** Skipping an unusable first selector shifts the first usable one by one. */
  lemma FirstUsableShift(p: Page, sels: seq<Selector>, i: int)
    requires |sels| > 0 && !UsableBreadcrumb(p, sels[0])
    requires FirstUsableAt(p, sels[1..], i)
    ensures FirstUsableAt(p, sels, i + 1) && sels[i + 1] == sels[1..][i]
  {
    forall j | 0 < j < i + 1 ensures !UsableBreadcrumb(p, sels[j]) {
      assert sels[j] == sels[1..][j - 1];
    }
  }

  /** The breadcrumb loop: the last category anchor of the first breadcrumb
      list that has one. */
  function BreadcrumbChoice(p: Page, sels: seq<Selector>): (r: Option<Anchor>)
    ensures r.None? <==> NoUsableBreadcrumb(p, sels)
    ensures r.Some? ==> exists i :: FirstUsableAt(p, sels, i) && r == LastCategoryAnchor(QueryAll(p, sels[i])[0].anchors)
    ensures r.Some? ==> BreadcrumbTarget(p, sels, r.value.href)
    ensures r.Some? ==> CategoryHref(r.value.href)
    decreases |sels|
  {
    if |sels| == 0 then None
    else if UsableBreadcrumb(p, sels[0]) then
      assert FirstUsableAt(p, sels, 0);
      LastCategoryAnchor(QueryAll(p, sels[0])[0].anchors)
    else
      var r := BreadcrumbChoice(p, sels[1..]);
      assert r.Some? ==> exists i :: FirstUsableAt(p, sels, i) && r == LastCategoryAnchor(QueryAll(p, sels[i])[0].anchors) by {
        if r.Some? {
          var i :| FirstUsableAt(p, sels[1..], i) && r == LastCategoryAnchor(QueryAll(p, sels[1..][i])[0].anchors);
          FirstUsableShift(p, sels, i);
        }
      }
      assert r.None? ==> NoUsableBreadcrumb(p, sels) by {
        if r.None? {
          forall i | 0 < i < |sels| ensures !UsableBreadcrumb(p, sels[i]) {
            assert sels[i] == sels[1..][i - 1];
          }
        }
      }
      r
  }

  /** The first element of `es` whose href leads to a category. */
  function FirstCategoryLink(es: seq<Element>): (r: Option<Element>)
    ensures r.None? <==> forall j :: 0 <= j < |es| ==> !CategoryHref(es[j].href)
    ensures r.Some? ==> exists j :: && 0 <= j < |es|
                                    && es[j] == r.value
                                    && CategoryHref(es[j].href)
                                    && forall n :: 0 <= n < j ==> !CategoryHref(es[n].href)
    decreases |es|
  {
    if |es| == 0 then None
    else if CategoryHref(es[0].href) then Some(es[0])
    else
      var r := FirstCategoryLink(es[1..]);
      assert forall j :: 0 <= j < |es| - 1 ==> es[1..][j] == es[j + 1];
      assert r.Some? ==> exists j :: && 0 <= j < |es|
                                     && es[j] == r.value
                                     && CategoryHref(es[j].href)
                                     && forall n :: 0 <= n < j ==> !CategoryHref(es[n].href) by {
        if r.Some? {
          var j :| && 0 <= j < |es[1..]|
                   && es[1..][j] == r.value
                   && CategoryHref(es[1..][j].href)
                   && forall n :: 0 <= n < j ==> !CategoryHref(es[1..][n].href);
          assert es[j + 1] == r.value;
        }
      }
      r
  }

  /** No selector finds a category anchor. */
  predicate NoCategoryLink(p: Page, sels: seq<Selector>) {
    forall i :: 0 <= i < |sels| ==> FirstCategoryLink(QueryAll(p, sels[i])).None?
  }

  /** `target` is where the "similar items" fallback goes: the first
      category anchor of the first selector that finds one. */
  ghost predicate SimilarTarget(p: Page, sels: seq<Selector>, target: string) {
    exists i :: FirstLinkAt(p, sels, i) && target == FirstCategoryLink(QueryAll(p, sels[i])).value.href
  }

  /** `sels[i]` is the first selector that finds a category anchor. */
  predicate FirstLinkAt(p: Page, sels: seq<Selector>, i: int) {
    && 0 <= i < |sels|
    && FirstCategoryLink(QueryAll(p, sels[i])).Some?
    && forall j :: 0 <= j < i ==> FirstCategoryLink(QueryAll(p, sels[j])).None?
  }

  /** Skipping a first selector without category anchors shifts the first
      one that has some by one. */
  lemma FirstLinkShift(p: Page, sels: seq<Selector>, i: int)
    requires |sels| > 0 && FirstCategoryLink(QueryAll(p, sels[0])).None?
    requires FirstLinkAt(p, sels[1..], i)
    ensures FirstLinkAt(p, sels, i + 1) && sels[i + 1] == sels[1..][i]
  {
    forall j | 0 < j < i + 1 ensures FirstCategoryLink(QueryAll(p, sels[j])).None? {
      assert sels[j] == sels[1..][j - 1];
    }
  }

  /** The "similar items" fallback: the first anchor, selector by selector and
      in document order, that does not lead to a listing. */
  function SimilarChoice(p: Page, sels: seq<Selector>): (r: Option<Element>)
    ensures r.None? <==> NoCategoryLink(p, sels)
    ensures r.Some? ==> exists i :: FirstLinkAt(p, sels, i) && r == FirstCategoryLink(QueryAll(p, sels[i]))
    ensures r.Some? ==> SimilarTarget(p, sels, r.value.href)
    ensures r.Some? ==> CategoryHref(r.value.href)
    decreases |sels|
  {
    if |sels| == 0 then None
    else if FirstCategoryLink(QueryAll(p, sels[0])).Some? then
      assert FirstLinkAt(p, sels, 0);
      FirstCategoryLink(QueryAll(p, sels[0]))
    else
      var r := SimilarChoice(p, sels[1..]);
      assert r.Some? ==> exists i :: FirstLinkAt(p, sels, i) && r == FirstCategoryLink(QueryAll(p, sels[i])) by {
        if r.Some? {
          var i :| FirstLinkAt(p, sels[1..], i) && r == FirstCategoryLink(QueryAll(p, sels[1..][i]));
          FirstLinkShift(p, sels, i);
        }
      }
      assert r.None? ==> NoCategoryLink(p, sels) by {
        if r.None? {
          forall i | 0 < i < |sels| ensures FirstCategoryLink(QueryAll(p, sels[i])).None? {
            assert sels[i] == sels[1..][i - 1];
          }
        }
      }
      r
  }
}

=== FILE: records.dfy ===
/** What the scrapers produce, and the outcomes of the browser operations the
    model takes as inputs. */
module Records {
  import opened Wrappers
  import opened Dom
  import opened Conditions

  /** The object `getListingDetails` returns. `colour` is only read by
      backend/scraper.js; backend/browserless-mode.js leaves it out. */
  datatype Details = Details(
    price: string,
    labels: seq<string>,
    cond: string,
    imageCount: nat,
    description: string,
    likesCount: string,
    isAuthentic: bool,
    originalPostingDate: string,
    colour: Option<string>)

  /** One listing of the result: the details with the caller's `link`
      attached, or the `{ link, error }` object that replaces them. */
  datatype Record =
    | Scraped(link: string, details: Details)
    | Failed(link: string, error: string)

  /** `{ originalListingDetails, relatedListings }` */
  datatype ScrapeResult = ScrapeResult(originalListingDetails: Record, relatedListings: seq<Record>)

  /** The outcome of opening a URL in a page and waiting for it: the rendered
      page, or the message of the exception `goto` or a readiness wait threw. */
  datatype Visit = Loaded(page: Page) | Broken(message: string)

  /** Where `scrapeGrailedListing` clicked to leave the listing page: the
      href of a breadcrumb anchor, of a "similar items" anchor, or nowhere. */
  datatype Route = ViaBreadcrumb(target: string) | ViaSimilar(target: string) | NoRoute

  /** Side effects on the browser session that the result depends on. */
  datatype Effect = Screenshot(path: string) | CloseBrowser

  /** One end-to-end run of `scrapeGrailedListing`: the resolved or rejected
      promise, the outcome of the condition filter when it was invoked, and
      the side effects in order. */
  datatype Run = Run(
    result: Result<ScrapeResult, string>,
    filter: Option<FilterOutcome>,
    effects: seq<Effect>)
}

=== FILE: resolver.dfy ===
/** Selector fallback chains: an ordered list of selectors for one field,
    newest markup first, where the first selector that yields something
    decides the field. These are the helpers of `getListingDetails` in
    backend/browserless-mode.js (`getFirstMatch`, the badge `some`, the label
    and thumbnail loops). Absence is never an error: an exhausted chain yields
    the field's empty value. */
module Resolver {
  import opened Dom

  /** Every selector's first match is missing or has blank text. */
  predicate AllBlank(p: Page, sels: seq<Selector>) {
    forall i :: 0 <= i < |sels| ==> TextOf(p, sels[i]) == ""
  }

  /** `sels[i]` is the first selector whose first match has non-blank text. */
  predicate FirstNonBlankAt(p: Page, sels: seq<Selector>, i: int) {
    && 0 <= i < |sels|
    && TextOf(p, sels[i]) != ""
    && forall j :: 0 <= j < i ==> TextOf(p, sels[j]) == ""
  }

  /** `getFirstMatch(sels)` in text mode: the trimmed text of the first
      selector whose text is non-empty, else `""`. */
  function FirstText(p: Page, sels: seq<Selector>): (r: string)
    ensures ReadsFirstText(p, sels, r)
    decreases |sels|
  {
    if |sels| == 0 then ""
    else if TextOf(p, sels[0]) != "" then
      assert FirstNonBlankAt(p, sels, 0);
      TextOf(p, sels[0])
    else
      var r := FirstText(p, sels[1..]);
      assert AllBlank(p, sels[1..]) ==> AllBlank(p, sels) by {
        if AllBlank(p, sels[1..]) {
          forall i | 0 <= i < |sels| ensures TextOf(p, sels[i]) == "" {
            if i > 0 { assert sels[i] == sels[1..][i - 1]; }
          }
        }
      }
      assert r != "" ==> exists i :: FirstNonBlankAt(p, sels, i) && r == TextOf(p, sels[i]) by {
        if r != "" {
          var i :| FirstNonBlankAt(p, sels[1..], i) && r == TextOf(p, sels[1..][i]);
          assert FirstNonBlankAt(p, sels, i + 1);
        }
      }
      r
  }

  /** `s` is what `getFirstMatch(sels)` reads in text mode: empty exactly
      when every selector is blank, and otherwise the text of the first
      selector that is not. */
  ghost predicate ReadsFirstText(p: Page, sels: seq<Selector>, s: string) {
    && (s == "" <==> AllBlank(p, sels))
    && (s != "" ==> exists i :: FirstNonBlankAt(p, sels, i) && s == TextOf(p, sels[i]))
  }

  /** That reading leaves no choice: at most one text meets it. */
  lemma ReadsFirstTextUnique(p: Page, sels: seq<Selector>, s: string, t: string)
    requires ReadsFirstText(p, sels, s) && ReadsFirstText(p, sels, t)
    ensures s == t
  {
    if s != "" {
      var i :| FirstNonBlankAt(p, sels, i) && s == TextOf(p, sels[i]);
      var j :| FirstNonBlankAt(p, sels, j) && t == TextOf(p, sels[j]);
      assert !(i < j) && !(j < i);
    }
  }

  /** `sels.some(elementExists)`, which is also `getFirstMatch` in
      `'exists'` mode: true iff some selector matches. */
  function AnyPresent(p: Page, sels: seq<Selector>): (r: bool)
    ensures r <==> exists i :: 0 <= i < |sels| && Present(p, sels[i])
    decreases |sels|
  {
    if |sels| == 0 then false
    else if Present(p, sels[0]) then true
    else
      var r := AnyPresent(p, sels[1..]);
      assert r ==> exists i :: 0 <= i < |sels| && Present(p, sels[i]) by {
        if r {
          var i :| 0 <= i < |sels[1..]| && Present(p, sels[1..][i]);
          assert Present(p, sels[i + 1]);
        }
      }
      r
  }

  /** The trimmed texts of `es` that are not empty, in document order (the
      `if (element.textContent.trim()) labels.push(...)` loop). */
  function NonEmptyTexts(es: seq<Element>): (r: seq<string>)
    ensures |r| <= |es|
    ensures forall k :: 0 <= k < |r| ==> r[k] != ""
    ensures forall i :: 0 <= i < |es| && es[i].text != "" ==> es[i].text in r
    ensures forall k :: 0 <= k < |r| ==> exists i :: 0 <= i < |es| && es[i].text == r[k]
    decreases |es|
  {
    if |es| == 0 then []
    else
      var rest := NonEmptyTexts(es[1..]);
      assert forall k :: 0 <= k < |rest| ==> exists i :: 0 <= i < |es| && es[i].text == rest[k] by {
        forall k | 0 <= k < |rest| ensures exists i :: 0 <= i < |es| && es[i].text == rest[k] {
          var i :| 0 <= i < |es[1..]| && es[1..][i].text == rest[k];
          assert es[i + 1].text == rest[k];
        }
      }
      if es[0].text != "" then [es[0].text] + rest else rest
  }

  /** Reading a list in two parts reads each part in turn: texts keep their
      document order and their multiplicity. */
  lemma {:induction false} NonEmptyTextsConcat(a: seq<Element>, b: seq<Element>)
    ensures NonEmptyTexts(a + b) == NonEmptyTexts(a) + NonEmptyTexts(b)
    decreases |a|
  {
    if |a| == 0 {
      assert a + b == b;
    } else {
      assert (a + b)[0] == a[0];
      assert (a + b)[1..] == a[1..] + b;
      NonEmptyTextsConcat(a[1..], b);
    }
  }

  /** One element contributes its text exactly when the text is not empty. */
  lemma NonEmptyTextsOne(e: Element)
    ensures NonEmptyTexts([e]) == if e.text != "" then [e.text] else []
  {
    assert [e][1..] == [];
  }

  /** The labels one selector yields. */
  function LabelsOf(p: Page, sel: Selector): seq<string> {
    NonEmptyTexts(QueryAll(p, sel))
  }

  /** No selector yields a label. */
  predicate NoLabels(p: Page, sels: seq<Selector>) {
    forall i :: 0 <= i < |sels| ==> LabelsOf(p, sels[i]) == []
  }

  /** `sels[i]` is the first selector that yields a label. */
  predicate FirstLabelledAt(p: Page, sels: seq<Selector>, i: int) {
    && 0 <= i < |sels|
    && LabelsOf(p, sels[i]) != []
    && forall j :: 0 <= j < i ==> LabelsOf(p, sels[j]) == []
  }

  /** The label loop: every non-empty text of the first selector variant
      that yields any, and nothing from later variants. */
  function FirstLabels(p: Page, sels: seq<Selector>): (r: seq<string>)
    ensures forall k :: 0 <= k < |r| ==> r[k] != ""
    ensures r == [] <==> NoLabels(p, sels)
    ensures r != [] ==> exists i :: FirstLabelledAt(p, sels, i) && r == LabelsOf(p, sels[i])
    decreases |sels|
  {
    if |sels| == 0 then []
    else if LabelsOf(p, sels[0]) != [] then
      assert FirstLabelledAt(p, sels, 0);
      LabelsOf(p, sels[0])
    else
      var r := FirstLabels(p, sels[1..]);
      assert NoLabels(p, sels[1..]) ==> NoLabels(p, sels) by {
        if NoLabels(p, sels[1..]) {
          forall i | 0 <= i < |sels| ensures LabelsOf(p, sels[i]) == [] {
            if i > 0 { assert sels[i] == sels[1..][i - 1]; }
          }
        }
      }
      assert r != [] ==> exists i :: FirstLabelledAt(p, sels, i) && r == LabelsOf(p, sels[i]) by {
        if r != [] {
          var i :| FirstLabelledAt(p, sels[1..], i) && r == LabelsOf(p, sels[1..][i]);
          assert FirstLabelledAt(p, sels, i + 1);
        }
      }
      r
  }

  /** No selector matches. */
  predicate AllAbsent(p: Page, sels: seq<Selector>) {
    forall i :: 0 <= i < |sels| ==> !Present(p, sels[i])
  }

  /** `sels[i]` is the first selector that matches. */
  predicate FirstPresentAt(p: Page, sels: seq<Selector>, i: int) {
    && 0 <= i < |sels|
    && Present(p, sels[i])
    && forall j :: 0 <= j < i ==> !Present(p, sels[j])
  }

  /** `container ? container.childElementCount : 0` for one selector. */
  function ChildCountOf(p: Page, sel: Selector): nat {
    match Query(p, sel)
    case None => 0
    case Some(e) => e.childCount
  }

  /** The thumbnail loop: the child count of the first container found, even
      when that count is 0; 0 when no container is found. */
  function FirstChildCount(p: Page, sels: seq<Selector>): (r: nat)
    ensures AllAbsent(p, sels) ==> r == 0
    ensures !AllAbsent(p, sels) ==>
              exists i :: FirstPresentAt(p, sels, i) && r == QueryAll(p, sels[i])[0].childCount
    decreases |sels|
  {
    if |sels| == 0 then 0
    else if Present(p, sels[0]) then
      assert FirstPresentAt(p, sels, 0);
      QueryAll(p, sels[0])[0].childCount
    else
      var r := FirstChildCount(p, sels[1..]);
      assert AllAbsent(p, sels[1..]) ==> AllAbsent(p, sels) by {
        if AllAbsent(p, sels[1..]) {
          forall i | 0 <= i < |sels| ensures !Present(p, sels[i]) {
            if i > 0 { assert sels[i] == sels[1..][i - 1]; }
          }
        }
      }
      assert !AllAbsent(p, sels) ==> !AllAbsent(p, sels[1..]) by {
        if !AllAbsent(p, sels) {
          var i :| 0 <= i < |sels| && Present(p, sels[i]);
          assert i > 0 && sels[1..][i - 1] == sels[i];
        }
      }
      assert !AllAbsent(p, sels) ==>
               exists i :: FirstPresentAt(p, sels, i) && r == QueryAll(p, sels[i])[0].childCount by {
        if !AllAbsent(p, sels) {
          var i :| FirstPresentAt(p, sels[1..], i) && r == QueryAll(p, sels[1..][i])[0].childCount;
          assert FirstPresentAt(p, sels, i + 1);
        }
      }
      r
  }

  /** `sels[k]` is the only selector of the chain the page exposes. */
  predicate OnlySource(p: Page, sels: seq<Selector>, k: int) {
    && 0 <= k < |sels|
    && forall j :: 0 <= j < |sels| && j != k ==> QueryAll(p, sels[j]) == []
  }

  /** When a page exposes a field under just one selector of its chain, every
      resolution reads exactly that selector, whatever its position: markup
      that only answers a fallback selector resolves like markup that only
      answers the newest one. */
  lemma OnlySourceDecides(p: Page, sels: seq<Selector>, k: int)
    requires OnlySource(p, sels, k)
    ensures FirstText(p, sels) == TextOf(p, sels[k])
    ensures AnyPresent(p, sels) == Present(p, sels[k])
    ensures FirstLabels(p, sels) == LabelsOf(p, sels[k])
    ensures FirstChildCount(p, sels) == ChildCountOf(p, sels[k])
  {
    OnlySourceText(p, sels, k);
    OnlySourceLabels(p, sels, k);
    OnlySourceChildCount(p, sels, k);
  }

  lemma OnlySourceText(p: Page, sels: seq<Selector>, k: int)
    requires OnlySource(p, sels, k)
    ensures FirstText(p, sels) == TextOf(p, sels[k])
  {
    var r := FirstText(p, sels);
    if r != "" {
      var i :| FirstNonBlankAt(p, sels, i) && r == TextOf(p, sels[i]);
    } else {
      assert TextOf(p, sels[k]) == "";
    }
  }

  lemma OnlySourceLabels(p: Page, sels: seq<Selector>, k: int)
    requires OnlySource(p, sels, k)
    ensures FirstLabels(p, sels) == LabelsOf(p, sels[k])
  {
    var r := FirstLabels(p, sels);
    if r != [] {
      var i :| && 0 <= i < |sels| && r == LabelsOf(p, sels[i])
               && forall j :: 0 <= j < i ==> LabelsOf(p, sels[j]) == [];
    } else {
      assert LabelsOf(p, sels[k]) == [];
    }
  }

  lemma OnlySourceChildCount(p: Page, sels: seq<Selector>, k: int)
    requires OnlySource(p, sels, k)
    ensures FirstChildCount(p, sels) == ChildCountOf(p, sels[k])
  {
    if !AllAbsent(p, sels) {
      assert forall i :: FirstPresentAt(p, sels, i) ==> i == k;
    }
  }

  /** A chain of one selector reads that selector directly. */
  lemma SingleSelector(p: Page, sel: Selector)
    ensures FirstText(p, [sel]) == TextOf(p, sel)
    ensures AnyPresent(p, [sel]) == Present(p, sel)
    ensures FirstLabels(p, [sel]) == LabelsOf(p, sel)
    ensures FirstChildCount(p, [sel]) == ChildCountOf(p, sel)
  {
    OnlySourceDecides(p, [sel], 0);
  }
}

=== FILE: scraper.dfy ===
/** backend/scraper.js: the early scraper. One selector per field, a colour
    field, a harvest loop that stops on a height plateau, all-or-nothing
    batches, and no fallback when the breadcrumb is missing. */
module Scraper {
  import opened Wrappers
  import opened Strings
  import opened Seqs
  import opened Dom
  import opened ListingUrls
  import opened Resolver
  import opened Conditions
  import opened Records
  import opened Extraction
  import opened Navigation
  import opened Batches
  import BrowserlessMode

  // ---------------------------------------------------------------------
  // Listing extraction (`getListingDetails`)
  // ---------------------------------------------------------------------

  const PriceSelector: Selector := ".MainContent_price__RSyWC span"
  const DiscountedPriceSelector: Selector := ".MainContent_price__RSyWC span.Price_onSale__qffVR"
  const ConditionSelector: Selector := ".MainContent_details__2FR05 p:nth-child(6) > span"
  const DescriptionSelector: Selector := ".MainContent_details__2FR05 h1"
  const LikesSelector: Selector := ".MainContent_saveLikes__Yq0PD button > span"
  const AuthenticBadgeSelector: Selector := ".AuthenticationBadge_clickable__HphPo span > span"
  const PostingDateSelector: Selector := ".Metadata_metadata__eYo0L > span:nth-child(2)"
  const LabelSelector: Selector := ".Details_designers__NnQ20 > a"
  const ThumbnailSelector: Selector := ".Thumbnails_thumbnails__KvRoX.PhotoGallery_thumbnails__VlX1l"
  const ColourSelector: Selector := "p:nth-of-type(4) span.Details_value__S1aVR"

  /** The selector table as chains of one selector each. */
  const EarlyChains: Chains := Chains(
    [PriceSelector], [DiscountedPriceSelector], [ConditionSelector], [DescriptionSelector], [LikesSelector],
    [AuthenticBadgeSelector], [PostingDateSelector], [LabelSelector], [ThumbnailSelector])

  /** `getListingDetails(page)`: each field read directly from its one
      selector, the discounted price preferred, plus the colour. */
  function ListingDetails(p: Page): (d: Details)
    ensures d.price == if TextOf(p, DiscountedPriceSelector) != "" then TextOf(p, DiscountedPriceSelector)
                       else TextOf(p, PriceSelector)
    ensures d.cond == TextOf(p, ConditionSelector)
    ensures d.description == TextOf(p, DescriptionSelector)
    ensures d.likesCount == TextOf(p, LikesSelector)
    ensures d.isAuthentic == Present(p, AuthenticBadgeSelector)
    ensures d.originalPostingDate == TextOf(p, PostingDateSelector)
    ensures d.labels == LabelsOf(p, LabelSelector)
    ensures d.imageCount == ChildCountOf(p, ThumbnailSelector)
    ensures d.colour == Some(TextOf(p, ColourSelector))
  {
    var d := Extract(p, EarlyChains);
    SingleSelector(p, PriceSelector);
    SingleSelector(p, DiscountedPriceSelector);
    SingleSelector(p, ConditionSelector);
    SingleSelector(p, DescriptionSelector);
    SingleSelector(p, LikesSelector);
    SingleSelector(p, AuthenticBadgeSelector);
    SingleSelector(p, PostingDateSelector);
    SingleSelector(p, LabelSelector);
    SingleSelector(p, ThumbnailSelector);
    d.(colour := Some(TextOf(p, ColourSelector)))
  }

  /** The early selectors are the first entries of the hardened chains. */
  lemma EarlyChainsAreHeads()
    ensures HasHeads(BrowserlessMode.HardenedChains)
    ensures Heads(BrowserlessMode.HardenedChains) == EarlyChains
  {
  }

  /** On markup that only answers the versioned selectors the early scraper
      knows, the two scrapers extract the same record except for the colour,
      which only the early one reads. */
  lemma HardenedAgreesOnCurrentMarkup(p: Page)
    requires var c := BrowserlessMode.HardenedChains;
             && OnlyHead(p, c.price) && OnlyHead(p, c.discountedPrice) && OnlyHead(p, c.condition)
             && OnlyHead(p, c.description) && OnlyHead(p, c.likesCount) && OnlyHead(p, c.authenticBadge)
             && OnlyHead(p, c.originalPostingDate) && OnlyHead(p, c.labels) && OnlyHead(p, c.thumbnails)
    ensures BrowserlessMode.ListingDetails(p) == ListingDetails(p).(colour := None)
  {
    EarlyChainsAreHeads();
    HeadsSuffice(p, BrowserlessMode.HardenedChains);
  }

  // ---------------------------------------------------------------------
  // Condition filter (`applyFilter`)
  // ---------------------------------------------------------------------

  /** The comma-separated panel selector `waitForSelector` waits for. */
  const FilterPanel: Selector := ".filter-bottom, ul.-custom-refinements, .Collapsible-module__collapsibleContent___KpYrl"

  /** `conditionMap[value.toLowerCase()]` after the `"new"` rewrite: the
      checkbox at the 1-based position of the condition in the filter list,
      `"new"` standing for the first entry, and none for any other value. */
  function ConditionCheckbox(value: string): (r: Option<Selector>)
    ensures r.Some? <==> ToLower(value) == NewAlias || ToLower(value) in ConditionNames
    ensures ToLower(value) == NewAlias ==> r == Some(IndexSelector(IndexedTemplate, 1))
    ensures forall k :: 0 <= k < |ConditionNames| && ToLower(value) == ConditionNames[k] ==>
              r == Some(IndexSelector(IndexedTemplate, k + 1))
  {
    LookupKeyIndex(value);
    match ConditionIndex(LookupKey(value))
    case None => None
    case Some(k) => Some(IndexSelector(IndexedTemplate, k))
  }

  /** `applyFilter(page, filterType, value)`. Only an unticked box of a known
      condition is a success; a ticked one reports failure, and a known
      condition whose checkbox is missing throws (`null.closest`) inside the
      step, which the step catches. */
  function ApplyFilter(p: Page, filterType: string, value: string): (r: FilterOutcome)
    ensures r.Skipped? <==> value == ""
    ensures r.PanelMissing? <==> value != "" && !Present(p, FilterPanel)
    ensures r.OtherFilter? <==> value != "" && Present(p, FilterPanel) && ToLower(filterType) != ConditionFilterType
    ensures r.Aborted? <==> && value != "" && Present(p, FilterPanel) && ToLower(filterType) == ConditionFilterType
                            && ConditionCheckbox(value).Some? && !Present(p, ConditionCheckbox(value).value)
    ensures r.Succeeded() <==> && value != "" && Present(p, FilterPanel) && ToLower(filterType) == ConditionFilterType
                               && ConditionCheckbox(value).Some? && Present(p, ConditionCheckbox(value).value)
                               && !QueryAll(p, ConditionCheckbox(value).value)[0].checked
    ensures r.Succeeded() ==> r.clicked && r.selector == ConditionCheckbox(value).value
  {
    if value == "" then Skipped
    else if !Present(p, FilterPanel) then PanelMissing
    else if ToLower(filterType) != ConditionFilterType then OtherFilter
    else match ConditionCheckbox(value)
      case None => NotApplied
      case Some(sel) =>
        if !Present(p, sel) then Aborted
        else if QueryAll(p, sel)[0].checked then NotApplied
        else Applied(sel, true)
  }

  /** An already-ticked checkbox of a known condition: the hardened scraper
      reports success without clicking, the early one reports failure. */
  lemma TickedBoxDisagreement(p: Page, value: string, k: nat)
    requires Present(p, FilterPanel) && AnyPresent(p, BrowserlessMode.FilterPanelSelectors)
    requires k < |ConditionNames|
    requires ToLower(value) == ConditionNames[k] || (k == 0 && ToLower(value) == NewAlias)
    requires !Present(p, BrowserlessMode.ValueSelector(IndexedTemplate, Normalize(value)))
    requires Present(p, IndexSelector(IndexedTemplate, k + 1))
    requires QueryAll(p, IndexSelector(IndexedTemplate, k + 1))[0].checked
    ensures BrowserlessMode.ApplyFilter(p, ConditionFilterType, value).Succeeded()
    ensures ApplyFilter(p, ConditionFilterType, value) == NotApplied
  {
    BrowserlessMode.KnownConditionUsesItsIndex(p, value, k);
    LookupKeyIndex(value);
    ConditionFilterTypeIsLower();
    assert ConditionCheckbox(value) == Some(IndexSelector(IndexedTemplate, k + 1));
  }

  // ---------------------------------------------------------------------
  // Link harvesting (`gatherListingLinks`)
  // ---------------------------------------------------------------------

  /** The comma-separated card selector of `$$eval`. */
  const CardSelector: Selector := ".feed-item a, .listing-item a"

  const MaxAttempts: nat := 20
  const LinkTarget: nat := 100
  /** Below this many links a height plateau does not end the loop. */
  const PlateauMinimum: nat := 10
  /** `listingLinks.slice(0, 30)` */
  const LinkCap: nat := 30

  /** `links.map((link) => link.href)` */
  function Hrefs(es: seq<Element>): (r: seq<string>)
    ensures |r| == |es| && forall i :: 0 <= i < |es| ==> r[i] == es[i].href
  {
    seq(|es|, i requires 0 <= i < |es| => es[i].href)
  }

  /** `newLinks` of one pass. */
  function PassLinks(o: Observation): seq<string> {
    KeepValid(Hrefs(QueryAll(o.page, CardSelector)))
  }

  function LinksPerPass(obs: seq<Observation>): (r: seq<seq<string>>)
    ensures |r| == |obs|
    ensures forall i :: 0 <= i < |obs| ==> r[i] == PassLinks(obs[i])
  {
    seq(|obs|, i requires 0 <= i < |obs| => PassLinks(obs[i]))
  }

  /** Every valid link the passes show, de-duplicated in order of first sight. */
  function DiscoveryOrder(obs: seq<Observation>): seq<string> {
    Dedup(Flatten(LinksPerPass(obs)))
  }

  /** The loop's variables after some passes: the links known, the passes
      made, and whether the last pass took the `break`. */
  datatype Harvest = Harvest(links: seq<string>, attempts: nat, plateau: bool)

  /** The page did not grow during the pass. */
  predicate Flat(o: Observation) {
    o.heightAfter == o.heightBefore
  }

  /** The `while` condition, and no `break` taken. */
  predicate Continues(h: Harvest) {
    |h.links| < LinkTarget && h.attempts < MaxAttempts && !h.plateau
  }

  /** One pass of the loop body: the new links are merged in, keeping the
      known ones as a prefix and appending the unseen ones; the pass breaks
      out when the page did not grow and at least 10 links are known. A flat
      page with fewer links is the `continue`: the loop goes on. */
  function Step(h: Harvest, o: Observation): (t: Harvest)
    requires NoDup(h.links)
    ensures t.attempts == h.attempts + 1
    ensures t.links == AppendNew(h.links, PassLinks(o))
    ensures h.links <= t.links && NoDup(t.links)
    ensures t.plateau <==> Flat(o) && |t.links| >= PlateauMinimum
  {
    var merged := Dedup(h.links + PassLinks(o));
    DedupMerge(h.links, PassLinks(o));
    Harvest(merged, h.attempts + 1, Flat(o) && |merged| >= PlateauMinimum)
  }

  lemma {:induction false} LinksPerPassSplit(obs: seq<Observation>, n: nat)
    requires 0 < n <= |obs|
    ensures Flatten(LinksPerPass(obs[..n])) == PassLinks(obs[0]) + Flatten(LinksPerPass(obs[1..][..n - 1]))
  {
    var ls := LinksPerPass(obs[..n]);
    assert ls[1..] == LinksPerPass(obs[1..][..n - 1]);
  }

  /** The `while` loop from `h`, given an observation for every pass it may
      still make. It ends when the condition fails or a pass breaks out. */
  function Loop(h: Harvest, obs: seq<Observation>): (t: Harvest)
    requires h.attempts <= MaxAttempts
    requires |obs| >= MaxAttempts - h.attempts
    requires NoDup(h.links)
    ensures h.attempts <= t.attempts <= MaxAttempts
    ensures !Continues(t)
    ensures !Continues(h) ==> t == h
    ensures h.links <= t.links && NoDup(t.links)
    decreases MaxAttempts - h.attempts
  {
    if !Continues(h) then h else Loop(Step(h, obs[0]), obs[1..])
  }

  /** A pass that keeps the loop going hands it on to the next pass. */
  lemma LoopContinues(h: Harvest, obs: seq<Observation>)
    requires Continues(h)
    requires |obs| >= MaxAttempts - h.attempts
    requires NoDup(h.links)
    ensures Loop(h, obs) == Loop(Step(h, obs[0]), obs[1..])
  {
  }

  /** Merging one pass's links ahead of the links of `n - 1` further passes
      is merging the links of all `n` passes. */
  lemma DiscoveryShift(h: Harvest, obs: seq<Observation>, n: nat, links: seq<string>)
    requires NoDup(h.links)
    requires 0 < n <= |obs|
    requires links == AppendNew(Step(h, obs[0]).links, Flatten(LinksPerPass(obs[1..][..n - 1])))
    ensures links == AppendNew(h.links, Flatten(LinksPerPass(obs[..n])))
  {
    LinksPerPassSplit(obs, n);
    AppendNewConcat(h.links, PassLinks(obs[0]), Flatten(LinksPerPass(obs[1..][..n - 1])));
  }

  /** The loop's links are the known ones followed by the links its passes
      revealed, each new one appended in the order first seen. */
  lemma {:induction false} LoopLinksInDiscoveryOrder(h: Harvest, obs: seq<Observation>)
    requires h.attempts <= MaxAttempts
    requires |obs| >= MaxAttempts - h.attempts
    requires NoDup(h.links)
    ensures var t := Loop(h, obs);
            t.links == AppendNew(h.links, Flatten(LinksPerPass(obs[..t.attempts - h.attempts])))
    decreases MaxAttempts - h.attempts
  {
    if Continues(h) {
      var next := Step(h, obs[0]);
      LoopLinksInDiscoveryOrder(next, obs[1..]);
      LoopContinues(h, obs);
      var t := Loop(next, obs[1..]);
      DiscoveryShift(h, obs, t.attempts - h.attempts, t.links);
    } else {
      assert obs[..0] == [];
    }
  }

  /** The state after the first `n` passes, whatever the `while` condition
      and the `break` say. */
  function Passes(h: Harvest, obs: seq<Observation>, n: nat): (t: Harvest)
    requires NoDup(h.links)
    requires n <= |obs|
    ensures NoDup(t.links)
    ensures t.attempts == h.attempts + n
    decreases n
  {
    if n == 0 then h else Passes(Step(h, obs[0]), obs[1..], n - 1)
  }

  /** Making `k` passes is making the first and then `k - 1` more. */
  lemma PassesShift(h: Harvest, obs: seq<Observation>, k: nat)
    requires NoDup(h.links)
    requires 0 < k <= |obs|
    ensures Passes(h, obs, k) == Passes(Step(h, obs[0]), obs[1..], k - 1)
  {
  }

  /** The loop makes exactly the passes a `while` with a `break` makes: the
      condition held, and no pass took the `break`, before each pass it made,
      and it returns the state after the last one. */
  lemma {:induction false} LoopStopsAtFirstExit(h: Harvest, obs: seq<Observation>)
    requires h.attempts <= MaxAttempts
    requires |obs| >= MaxAttempts - h.attempts
    requires NoDup(h.links)
    ensures var n := Loop(h, obs).attempts - h.attempts;
            && n <= |obs|
            && Loop(h, obs) == Passes(h, obs, n)
            && forall k :: 0 <= k < n ==> Continues(Passes(h, obs, k))
    decreases MaxAttempts - h.attempts
  {
    if Continues(h) {
      var next := Step(h, obs[0]);
      LoopStopsAtFirstExit(next, obs[1..]);
      LoopContinues(h, obs);
      var n := Loop(h, obs).attempts - h.attempts;
      PassesShift(h, obs, n);
      forall k | 0 < k < n ensures Continues(Passes(h, obs, k)) {
        PassesShift(h, obs, k);
      }
    }
  }

  /** Making `n` passes is making `n - 1` and then the last (used by
      `LoopBreaksOnPlateau` to reach the last pass). */
  lemma {:induction false} PassesLast(h: Harvest, obs: seq<Observation>, n: nat)
    requires NoDup(h.links)
    requires 0 < n <= |obs|
    ensures Passes(h, obs, n) == Step(Passes(h, obs, n - 1), obs[n - 1])
    decreases n
  {
    if n > 1 {
      var next := Step(h, obs[0]);
      PassesLast(next, obs[1..], n - 1);
      PassesShift(h, obs, n);
      PassesShift(h, obs, n - 1);
    }
  }

  /** The loop ends on the `break` exactly when its last pass left the page
      height unchanged with at least 10 links known. */
  lemma LoopBreaksOnPlateau(h: Harvest, obs: seq<Observation>)
    requires h.attempts <= MaxAttempts
    requires |obs| >= MaxAttempts - h.attempts
    requires NoDup(h.links)
    requires !h.plateau
    ensures var t := Loop(h, obs);
            var n := t.attempts - h.attempts;
            t.plateau <==> n > 0 && Flat(obs[n - 1]) && |t.links| >= PlateauMinimum
  {
    LoopStopsAtFirstExit(h, obs);
    var n := Loop(h, obs).attempts - h.attempts;
    if n > 0 {
      PassesLast(h, obs, n);
    }
  }

  /** A pass that leaves the page height unchanged with at least 10 links
      known ends the loop right after it. */
  lemma PlateauEndsHarvest(h: Harvest, obs: seq<Observation>)
    requires Continues(h)
    requires |obs| >= MaxAttempts - h.attempts
    requires NoDup(h.links)
    requires Flat(obs[0]) && |AppendNew(h.links, PassLinks(obs[0]))| >= PlateauMinimum
    ensures Loop(h, obs) == Step(h, obs[0])
    ensures Loop(h, obs).plateau && Loop(h, obs).attempts == h.attempts + 1
  {
  }

  /** `gatherListingLinks()`, given an observation for every pass the loop
      may make: the first 30 links the loop collected. */
  function GatherListingLinks(obs: seq<Observation>): (r: seq<string>)
    requires |obs| >= MaxAttempts
    ensures |r| <= LinkCap
  {
    Take(Loop(Harvest([], 0, false), obs).links, LinkCap)
  }

  /** The first `n` passes discover a prefix of the discovery order. */
  lemma DiscoveryPrefix(obs: seq<Observation>, n: nat)
    requires n <= |obs|
    ensures Dedup(Flatten(LinksPerPass(obs[..n]))) <= DiscoveryOrder(obs)
  {
    assert LinksPerPass(obs[..n]) == LinksPerPass(obs)[..n];
    DedupFlattenPrefix(LinksPerPass(obs), n);
  }

  /** The loop's links, started from nothing, are a prefix of the discovery
      order. */
  lemma HarvestIsDiscoveryPrefix(obs: seq<Observation>)
    requires |obs| >= MaxAttempts
    ensures Loop(Harvest([], 0, false), obs).links <= DiscoveryOrder(obs)
  {
    FreshLoopIsDiscoveryPrefix(Harvest([], 0, false), obs);
  }

  /** The same for any fresh state. */
  lemma FreshLoopIsDiscoveryPrefix(h: Harvest, obs: seq<Observation>)
    requires h.links == [] && h.attempts == 0
    requires |obs| >= MaxAttempts
    ensures Loop(h, obs).links <= DiscoveryOrder(obs)
  {
    var t := Loop(h, obs);
    LoopLinksInDiscoveryOrder(h, obs);
    assert t.links == Dedup(Flatten(LinksPerPass(obs[..t.attempts])));
    DiscoveryPrefix(obs, t.attempts);
  }

  /** The harvest result: at most 30 distinct valid listing URLs, a prefix
      of the order in which the passes revealed them. */
  lemma GatheredLinksAreDiscovered(obs: seq<Observation>)
    requires |obs| >= MaxAttempts
    ensures NoDup(GatherListingLinks(obs))
    ensures forall k :: 0 <= k < |GatherListingLinks(obs)| ==> ValidListingUrl(GatherListingLinks(obs)[k])
    ensures GatherListingLinks(obs) <= DiscoveryOrder(obs)
  {
    HarvestIsDiscoveryPrefix(obs);
    AllValidFlatten(LinksPerPass(obs));
    NoDupPrefix(GatherListingLinks(obs), DiscoveryOrder(obs));
  }

  /** When all passes together show fewer than 10 distinct valid links, no
      plateau can end the loop: it makes all 20 passes. */
  lemma FewLinksUseEveryPass(obs: seq<Observation>)
    requires |obs| >= MaxAttempts
    requires |DiscoveryOrder(obs)| < PlateauMinimum
    ensures Loop(Harvest([], 0, false), obs).attempts == MaxAttempts
    ensures !Loop(Harvest([], 0, false), obs).plateau
  {
    HarvestIsDiscoveryPrefix(obs);
    LoopBreaksOnPlateau(Harvest([], 0, false), obs);
  }

  // ---------------------------------------------------------------------
  // Batch scraping (`scrapeListingDetails`, `scrapeMultipleListings`)
  // ---------------------------------------------------------------------

  /** `batchSize` at the call in `scrapeGrailedListing` */
  const BatchSize: nat := 5

  /** One related listing: its details with the link attached, or the
      rejection of `goto`, which nothing here catches. */
  function ScrapeListingDetails(visit: string -> Visit, link: string): (r: Result<Record, string>)
    ensures r.Success? <==> visit(link).Loaded?
    ensures r.Success? ==> r.value == Scraped(link, ListingDetails(visit(link).page))
    ensures r.Failure? ==> r.error == visit(link).message
  {
    match visit(link)
    case Loaded(page) => Success(Scraped(link, ListingDetails(page)))
    case Broken(message) => Failure(message)
  }

  /** All of `links` loaded. */
  predicate AllLoaded(visit: string -> Visit, links: seq<string>) {
    forall i :: 0 <= i < |links| ==> visit(links[i]).Loaded?
  }

  /** The records of `links` when all of them loaded, in order. */
  predicate RecordsOf(visit: string -> Visit, links: seq<string>, rs: seq<Record>) {
    && |rs| == |links|
    && forall i :: 0 <= i < |links| ==> visit(links[i]).Loaded? && rs[i] == Scraped(links[i], ListingDetails(visit(links[i]).page))
  }

  /** The message of some link of `links` that failed to load. */
  predicate FailureOf(visit: string -> Visit, links: seq<string>, message: string) {
    exists i :: 0 <= i < |links| && visit(links[i]).Broken? && visit(links[i]).message == message
  }

  /** The all-or-nothing outcome of the per-link step, read back in terms of
      the pages the links yield. */
  lemma OutcomeMeans(visit: string -> Visit, links: seq<string>, r: Result<seq<Record>, string>)
    requires Outcome(link => ScrapeListingDetails(visit, link), links, r)
    ensures r.Success? <==> AllLoaded(visit, links)
    ensures r.Success? ==> RecordsOf(visit, links, r.value)
    ensures r.Failure? ==> FailureOf(visit, links, r.error)
  {
    var f := link => ScrapeListingDetails(visit, link);
    if r.Failure? {
      var i :| 0 <= i < |links| && f(links[i]) == Failure(r.error);
      assert visit(links[i]).Broken? && visit(links[i]).message == r.error;
    }
  }

  /** `batches[b]` is the first batch with a link that failed to load, and
      `message` is the message of one of its failed links. */
  ghost predicate FirstBrokenBatch(visit: string -> Visit, batches: seq<seq<string>>, b: int, message: string) {
    && 0 <= b < |batches|
    && (forall j :: 0 <= j < b ==> AllLoaded(visit, batches[j]))
    && FailureOf(visit, batches[b], message)
  }

  /** The first batch whose step rejects is the first batch with a link that
      failed to load. */
  lemma FailingBatchMeans(visit: string -> Visit, f: string -> Result<Record, string>, batches: seq<seq<string>>, message: string)
    requires forall link :: f(link) == ScrapeListingDetails(visit, link)
    requires exists b :: FirstFailingBatch(f, batches, b, message)
    ensures exists b :: FirstBrokenBatch(visit, batches, b, message)
  {
    var b :| FirstFailingBatch(f, batches, b, message);
    forall j | 0 <= j < b ensures AllLoaded(visit, batches[j]) {
      assert AllSucceed(f, batches[j]);
    }
    var i :| 0 <= i < |batches[b]| && f(batches[b][i]) == Failure(message);
    assert visit(batches[b][i]).Broken? && visit(batches[b][i]).message == message;
    assert FirstBrokenBatch(visit, batches, b, message);
  }

  /** `scrapeMultipleListings(browser, links, batchSize)`: all records in
      link order when every link loads, otherwise a rejection carrying the
      message of a failed link from the first batch that has one; the
      batches after it are never started. */
  function ScrapeMultipleListings(visit: string -> Visit, links: seq<string>, batchSize: nat): (r: Result<seq<Record>, string>)
    requires batchSize > 0
    ensures r.Success? <==> AllLoaded(visit, links)
    ensures r.Success? ==> RecordsOf(visit, links, r.value)
    ensures r.Failure? ==> FailureOf(visit, links, r.error)
    ensures r.Failure? ==> exists b :: FirstBrokenBatch(visit, Chunks(links, batchSize), b, r.error)
  {
    var f := link => ScrapeListingDetails(visit, link);
    var r := AllOfBatches(f, Chunks(links, batchSize));
    OutcomeMeans(visit, links, r);
    if r.Failure? then
      FailingBatchMeans(visit, f, Chunks(links, batchSize), r.error);
      r
    else
      r
  }

  // ---------------------------------------------------------------------
  // Category navigation and the end-to-end run (`scrapeGrailedListing`)
  // ---------------------------------------------------------------------

  /** The one comma-separated breadcrumb selector. */
  const BreadcrumbSelector: Selector := "nav.Breadcrumbs_breadcrumbs__9ol0k ol, .breadcrumbs ol"

  const BreadcrumbError: string := "Could not find a valid category breadcrumb link"

  /** The breadcrumb step: the last category anchor of the first breadcrumb
      list, if it has one; no other list is tried. */
  function Breadcrumb(p: Page): (r: Option<Anchor>)
    ensures r.Some? <==> UsableBreadcrumb(p, BreadcrumbSelector)
    ensures r.Some? ==> r == LastCategoryAnchor(QueryAll(p, BreadcrumbSelector)[0].anchors)
    ensures r.Some? ==> CategoryHref(r.value.href)
  {
    BreadcrumbChoice(p, [BreadcrumbSelector])
  }

  /** `scrapeGrailedListing(listingUrl)`. The browser's behaviour enters as
      inputs: `original` is the listing page after `goto`, `category` the
      page after the breadcrumb click (whose waits never fail the run),
      `obs` what each harvesting pass sees, and `visit` what opening each
      related listing yields. The browser is closed on every path. */
  function ScrapeGrailedListing(
    listingUrl: string,
    original: Visit,
    category: Page,
    obs: seq<Observation>,
    visit: string -> Visit): (run: Run)
    requires |obs| >= MaxAttempts
    ensures run.effects == [CloseBrowser]
    ensures run.filter.Some? <==> && original.Loaded? && Breadcrumb(original.page).Some?
                                  && ListingDetails(original.page).cond != ""
    ensures run.filter.Some? ==>
              run.filter.value == ApplyFilter(category, ConditionFilterType, ListingDetails(original.page).cond)
  {
    match original
    case Broken(message) => Run(Failure(message), None, [CloseBrowser])
    case Loaded(listingPage) =>
      if Breadcrumb(listingPage).None? then Run(Failure(BreadcrumbError), None, [CloseBrowser])
      else CategoryRun(Scraped(listingUrl, ListingDetails(listingPage)), category, obs, visit)
  }

  /** The part after the breadcrumb click: the filter when the listing showed
      a condition, the harvest, and the batch scrape, whose rejection rejects
      the run. */
  function CategoryRun(originalRecord: Record, category: Page, obs: seq<Observation>, visit: string -> Visit): (run: Run)
    requires originalRecord.Scraped?
    requires |obs| >= MaxAttempts
    ensures run.effects == [CloseBrowser]
    ensures run.filter.Some? <==> originalRecord.details.cond != ""
    ensures run.filter.Some? ==> run.filter.value == ApplyFilter(category, ConditionFilterType, originalRecord.details.cond)
    ensures run.result.Success? <==> AllLoaded(visit, GatherListingLinks(obs))
    ensures run.result.Success? ==> run.result.value.originalListingDetails == originalRecord
  {
    var cond := originalRecord.details.cond;
    var filter := if cond != "" then Some(ApplyFilter(category, ConditionFilterType, cond)) else None;
    match ScrapeMultipleListings(visit, GatherListingLinks(obs), BatchSize)
    case Failure(m) => Run(Failure(m), filter, [CloseBrowser])
    case Success(related) => Run(Success(ScrapeResult(originalRecord, related)), filter, [CloseBrowser])
  }

  /** No usable breadcrumb: the run rejects with the breadcrumb error before
      the filter. */
  lemma NoBreadcrumbRejects(listingUrl: string, original: Visit, category: Page, obs: seq<Observation>, visit: string -> Visit)
    requires |obs| >= MaxAttempts
    requires original.Loaded? && !UsableBreadcrumb(original.page, BreadcrumbSelector)
    ensures ScrapeGrailedListing(listingUrl, original, category, obs, visit).result == Failure(BreadcrumbError)
    ensures ScrapeGrailedListing(listingUrl, original, category, obs, visit).filter.None?
  {
  }

  /** All or nothing: the run resolves exactly when the listing loaded, had
      a usable breadcrumb, and every gathered link loaded; it then carries
      one record per gathered link, in order. */
  lemma ResolvesOnlyWhenEveryLinkLoads(listingUrl: string, original: Visit, category: Page, obs: seq<Observation>, visit: string -> Visit)
    requires |obs| >= MaxAttempts
    ensures var run := ScrapeGrailedListing(listingUrl, original, category, obs, visit);
            run.result.Success? <==> && original.Loaded? && Breadcrumb(original.page).Some?
                                     && AllLoaded(visit, GatherListingLinks(obs))
    ensures var run := ScrapeGrailedListing(listingUrl, original, category, obs, visit);
            run.result.Success? ==>
              && run.result.value.originalListingDetails == Scraped(listingUrl, ListingDetails(original.page))
              && RecordsOf(visit, GatherListingLinks(obs), run.result.value.relatedListings)
  {
    var run := ScrapeGrailedListing(listingUrl, original, category, obs, visit);
    if run.result.Success? {
      var links := GatherListingLinks(obs);
      assert ScrapeMultipleListings(visit, links, BatchSize) == Success(run.result.value.relatedListings);
    }
  }
}

=== FILE: seqs.dfy ===
/** Sequence operations behind the scrapers' list handling: insertion-ordered
    de-duplication (`Array.from(new Set(xs))`), flattening and `slice`-based
    batching. */
module Seqs {

  /** No value appears twice. */
  predicate NoDup<T(==)>(s: seq<T>) {
    forall i, j :: 0 <= i < j < |s| ==> s[i] != s[j]
  }

  /** Appends to `acc`, in order, every element of `xs` not seen before: the
      insertion-order semantics of a JavaScript `Set` that already holds
      `acc`. */
  function AppendNew<T(==)>(acc: seq<T>, xs: seq<T>): (r: seq<T>)
    ensures acc <= r
    ensures NoDup(acc) ==> NoDup(r)
    ensures forall i :: 0 <= i < |xs| ==> xs[i] in r
    ensures forall k :: 0 <= k < |r| ==> r[k] in acc || r[k] in xs
    ensures forall k :: |acc| <= k < |r| ==> r[k] !in acc && r[k] in xs
    ensures |r| <= |acc| + |xs|
    decreases |xs|
  {
    if |xs| == 0 then acc
    else if xs[0] in acc then AppendNew(acc, xs[1..])
    else
      var r := AppendNew(acc + [xs[0]], xs[1..]);
      assert r[|acc|] == (acc + [xs[0]])[|acc|] == xs[0];
      r
  }

  /** `Array.from(new Set(s))`: first occurrences, in order. */
  function Dedup<T(==)>(s: seq<T>): (r: seq<T>)
    ensures NoDup(r)
    ensures forall i :: 0 <= i < |s| ==> s[i] in r
    ensures forall k :: 0 <= k < |r| ==> r[k] in s
    ensures |r| <= |s|
  {
    AppendNew([], s)
  }

  /** Feeding `a` and then `b` into the set is feeding `a + b`. */
  lemma {:induction false} AppendNewConcat<T>(acc: seq<T>, a: seq<T>, b: seq<T>)
    ensures AppendNew(acc, a + b) == AppendNew(AppendNew(acc, a), b)
    decreases |a|
  {
    if |a| == 0 {
      assert a + b == b;
    } else {
      assert (a + b)[0] == a[0];
      assert (a + b)[1..] == a[1..] + b;
      if a[0] in acc {
        AppendNewConcat(acc, a[1..], b);
      } else {
        AppendNewConcat(acc + [a[0]], a[1..], b);
      }
    }
  }

  /** Elements that are all new and pairwise distinct are appended verbatim. */
  lemma {:induction false} AppendNewFresh<T>(acc: seq<T>, xs: seq<T>)
    requires NoDup(acc + xs)
    ensures AppendNew(acc, xs) == acc + xs
    decreases |xs|
  {
    if |xs| > 0 {
      assert (acc + xs)[|acc|] == xs[0];
      assert xs[0] !in acc by {
        forall i | 0 <= i < |acc| ensures acc[i] != xs[0] {
          assert (acc + xs)[i] == acc[i];
        }
      }
      assert acc + xs == (acc + [xs[0]]) + xs[1..];
      AppendNewFresh(acc + [xs[0]], xs[1..]);
    }
  }

  /** Merging into a duplicate-free list keeps that list as a prefix and only
      appends values from `b` it did not already hold:
      `Array.from(new Set([...a, ...b]))` when `a` has no duplicates. */
  lemma DedupMerge<T>(a: seq<T>, b: seq<T>)
    requires NoDup(a)
    ensures Dedup(a + b) == AppendNew(a, b)
    ensures a <= Dedup(a + b)
    ensures forall k :: |a| <= k < |Dedup(a + b)| ==> Dedup(a + b)[k] in b && Dedup(a + b)[k] !in a
  {
    AppendNewConcat([], a, b);
    AppendNewFresh([], a);
    assert [] + a == a;
  }

  /** Concatenation of a sequence of sequences. */
  function Flatten<T(==)>(ss: seq<seq<T>>): (r: seq<T>)
    ensures |ss| > 0 ==> ss[0] <= r
    decreases |ss|
  {
    if |ss| == 0 then [] else ss[0] + Flatten(ss[1..])
  }

  /** A prefix of the inputs contributes a prefix of the flattening. */
  lemma {:induction false} FlattenPrefix<T>(ss: seq<seq<T>>, n: nat)
    requires n <= |ss|
    ensures Flatten(ss[..n]) <= Flatten(ss)
    decreases n
  {
    if n > 0 {
      assert ss[..n][1..] == ss[1..][..n - 1];
      FlattenPrefix(ss[1..], n - 1);
    }
  }

  /** A prefix and what follows it make up the whole (a step of
      `DedupPrefixOfConcat`). */
  lemma PrefixConcat<T>(a: seq<T>, w: seq<T>)
    requires a <= w
    ensures w == a + w[|a|..]
  {
  }

  /** Removing duplicates from a prefix gives a prefix of removing them from
      the whole. */
  lemma DedupPrefixOfConcat<T>(a: seq<T>, b: seq<T>)
    ensures Dedup(a) <= Dedup(a + b)
  {
    AppendNewConcat([], a, b);
  }

  /** Removing duplicates from the first `n` lists' elements gives a prefix
      of removing them from all of them. */
  lemma DedupFlattenPrefix<T>(ss: seq<seq<T>>, n: nat)
    requires n <= |ss|
    ensures Dedup(Flatten(ss[..n])) <= Dedup(Flatten(ss))
  {
    var whole := Flatten(ss);
    var a := Flatten(ss[..n]);
    FlattenPrefix(ss, n);
    PrefixConcat(a, whole);
    DedupPrefixOfConcat(a, whole[|a|..]);
  }

  /** The batches `s.slice(i, i + size)` for `i = 0, size, 2 * size, ...`. */
  function Chunks<T(==)>(s: seq<T>, size: nat): (r: seq<seq<T>>)
    requires size > 0
    ensures Flatten(r) == s
    ensures forall i :: 0 <= i < |r| ==> 0 < |r[i]| <= size
    ensures forall i :: 0 <= i < |r| - 1 ==> |r[i]| == size
    decreases |s|
  {
    if |s| == 0 then []
    else if |s| <= size then [s]
    else [s[..size]] + Chunks(s[size..], size)
  }

  /** `s.slice(0, n)`: at most `n` leading elements. */
  function Take<T(==)>(s: seq<T>, n: nat): (r: seq<T>)
    ensures r <= s
    ensures |r| == if |s| < n then |s| else n
  {
    if |s| <= n then s else s[..n]
  }

  lemma NoDupPrefix<T>(a: seq<T>, b: seq<T>)
    requires a <= b && NoDup(b)
    ensures NoDup(a)
  {
    assert forall i :: 0 <= i < |a| ==> a[i] == b[i];
  }
}

=== FILE: strings.dfy ===
/** The few JavaScript string operations the scrapers rely on, over
    `string` = `seq<char>`. */
module Strings {
  import opened Wrappers

  /** `s.startsWith(p)` */
  predicate StartsWith(s: string, p: string) {
    |p| <= |s| && s[..|p|] == p
  }

  /** `sub` occurs in `s` starting at index `i`. */
  predicate OccursAt(s: string, sub: string, i: int) {
    0 <= i && i + |sub| <= |s| && s[i..i + |sub|] == sub
  }

  /** Scans `s` for `sub` from position `k` onwards. */
  function IndexOfFrom(s: string, sub: string, k: nat): (r: Option<nat>)
    requires k <= |s|
    ensures r.Some? ==> k <= r.value && OccursAt(s, sub, r.value)
    ensures r.Some? ==> forall j :: k <= j < r.value ==> !OccursAt(s, sub, j)
    ensures r.None? ==> forall j :: k <= j ==> !OccursAt(s, sub, j)
    decreases |s| - k
  {
    if OccursAt(s, sub, k) then Some(k)
    else if k + |sub| >= |s| then None
    else IndexOfFrom(s, sub, k + 1)
  }

  /** `s.indexOf(sub)`, with `None` for JavaScript's `-1`: the position of the
      first occurrence. */
  function IndexOf(s: string, sub: string): (r: Option<nat>)
    ensures r.Some? ==> OccursAt(s, sub, r.value)
    ensures r.Some? ==> forall j :: 0 <= j < r.value ==> !OccursAt(s, sub, j)
    ensures r.None? <==> forall j :: !OccursAt(s, sub, j)
  {
    IndexOfFrom(s, sub, 0)
  }

  /** `s.includes(sub)` */
  predicate Includes(s: string, sub: string) {
    IndexOf(s, sub).Some?
  }

  /** `s.replace(pat, rep)` with a string pattern: only the FIRST occurrence is
      replaced, and a string without the pattern comes back unchanged. */
  function ReplaceFirst(s: string, pat: string, rep: string): (r: string)
    ensures IndexOf(s, pat).None? ==> r == s
    ensures IndexOf(s, pat).Some? ==>
              var i := IndexOf(s, pat).value;
              && |r| == |s| - |pat| + |rep|
              && r[..i] == s[..i]
              && r[i..i + |rep|] == rep
              && r[i + |rep|..] == s[i + |pat|..]
  {
    match IndexOf(s, pat)
    case None => s
    case Some(i) => s[..i] + rep + s[i + |pat|..]
  }

  predicate IsUpper(c: char) {
    'A' <= c <= 'Z'
  }

  /** `toLowerCase` restricted to the ASCII letters. */
  function LowerChar(c: char): (r: char)
    ensures !IsUpper(r)
    ensures !IsUpper(c) ==> r == c
  {
    if IsUpper(c) then (c as int + 32) as char else c
  }

  /** `s.toLowerCase()` for ASCII text. */
  function ToLower(s: string): (r: string)
    ensures |r| == |s|
    ensures forall i :: 0 <= i < |s| ==> r[i] == LowerChar(s[i])
  {
    seq(|s|, i requires 0 <= i < |s| => LowerChar(s[i]))
  }

  /** Lower-casing text with no upper-case letter leaves it unchanged. */
  lemma ToLowerOfLower(s: string)
    requires forall i :: 0 <= i < |s| ==> !IsUpper(s[i])
    ensures ToLower(s) == s
  {
  }

  /** Lower-casing twice is lower-casing once. */
  lemma ToLowerIdempotent(s: string)
    ensures ToLower(ToLower(s)) == ToLower(s)
  {
    ToLowerOfLower(ToLower(s));
  }

  /** `\d` in a JavaScript regular expression. */
  predicate IsDigit(c: char) {
    '0' <= c <= '9'
  }

  /** Decimal rendering of a one-digit number, as `String(n)` gives it. */
  function DigitString(n: nat): (r: string)
    requires n <= 9
    ensures |r| == 1 && IsDigit(r[0])
  {
    [('0' as int + n) as char]
  }
}

=== FILE: wrappers.dfy ===
/** Failure-carrying values used in place of JavaScript's `null` results and
    thrown exceptions. */
module Wrappers {

  /** A value that may be absent (`querySelector` returning `null`, a missing
      key in an object literal). */
  datatype Option<+T> = None | Some(value: T)

  /** Either a value or the message of the exception that replaced it. */
  datatype Result<+R, +E> = Success(value: R) | Failure(error: E)
}
